=== FILE: README.md ===
# TimeUp planner core in Dafny

TimeUp is a small student planner with three views. This project models the logic those views hold inside their components:

- the **tasks page** (`src/components/tasks-page-client.tsx`);
- the **weekly schedule page** (`src/components/schedule-page-client.tsx`);
- the **dashboard** (`src/app/page.tsx`);
- the **seed records** the views start from (`src/lib/data.ts`).

The logic is modelled as pure functions over immutable records, and the properties the views rely on are proved. They fall into four groups.

1. **Validation.** This covers two form schemas:
   - the task form: a non-empty title, a due date that is present, and a type from {Task, Exam, Reminder};
   - the class form: a non-empty subject, an English weekday name, and two times matching `^([0-1]?[0-9]|2[0-3]):[0-5][0-9]$`.

   The time pattern is modelled as a character-level automaton. It is proved to recognise exactly the pattern's language.
2. **Creation.**
   - A new task goes in front of the list.
   - A new class goes after the last one.
   - The id is the decimal spelling of the creation timestamp.
3. **Projections.**
   - The task table, ordered by due date.
   - The seven day columns: each day's classes, ordered by start time.
   - The dashboard's five nearest deadlines that have not passed.
   - The dashboard's classes for today.
4. **Share texts.** These are the texts that "Share Tasks" and "Share Schedule" copy to the clipboard.

## Modelling choices

- **Sorting.** The views sort with `Array.prototype.sort`, which ECMAScript 2019 and later require to be stable.
  - The sort is modelled as an insertion sort (`ArrayOps.SortBy`) over a total preorder.
  - It is proved sorted, a permutation, and stable.
  - It is also proved to be the *only* list with those three properties (`ArrayOps.SortByCharacterization`). Any stable sort therefore produces the same list.
- **Start-time comparison.** Start times are compared with `localeCompare`, modelled by `Collation.CollateLe`. It compares lexicographically, with ':' below the digits and the digits below every other character.
  - For zero-padded `HH:mm` this order is chronological.
  - The pattern also accepts one-digit hours such as "9:00". Against a padded time the rule is (`TimePattern.ShortVsPadded`): "H:mm" sorts before "HH:mm" exactly when H is at most the tens digit of the padded hour, whatever the minutes. Against the clock this goes wrong in four places:
    - hours 2-9 sort after every padded hour 10-19 (`TimePattern.ShortHourCollatesOutOfOrder`): "9:00" comes after "10:00";
    - hours 3-9 sort after every padded hour 20-23: "3:00" comes after "20:00";
    - hours 1-9 sort after every later padded hour "0H:mm" (`TimePattern.ShortHourAfterPaddedMorning`): "1:30" comes after "09:00";
    - "0:mm" sorts before every "00:mm", so "0:45" comes before "00:15".
  - The remaining pairs sort as the clock has them: hours 0 and 1 before the padded hours 10-19 (`TimePattern.ShortLowHourCollatesInOrder`), hours 0-2 before 20-23, and "0:mm" before "01:mm" to "09:mm" ("0:30" before "05:00"). `TimePattern.ShortVsPaddedExamples` checks the "20:00", "00:15" and "05:00" instances.
  - Both time fields are `<Input type="time">` (schedule-page-client.tsx:176, :189). A browser that supports that input type reports a zero-padded "HH:mm". A one-digit hour reaches a column only where the input falls back to plain text. There, a class at "9:00" appears below a 10:00 class in its column.
- **Dates and the clock.**
  - Dates are integer milliseconds.
  - The current instant `now`, today's weekday name and the seed's load time `base` are parameters.
  - The date formatter is an uninterpreted function parameter.
- **Field names.** The task's `type` field is named `kind`.
- **Loose types for `kind` and `day`.** Both are plain strings, so two mismatches stay representable:
  - the record type declares Spanish task types, while the form admits English ones;
  - the record type declares Spanish and English day names, while the page shows English ones.

## Model

| member | source | states |
|---|---|---|
| ArrayOps.Filter | src/components/schedule-page-client.tsx:228-229 | `filter` keeps exactly the elements satisfying the predicate and never lengthens the list |
| ArrayOps.FilterCount | src/components/schedule-page-client.tsx:228-229 | `filter` keeps every occurrence of a kept element and none of a dropped one |
| ArrayOps.FilterDropsPrefix | src/app/page.tsx:9 | when the elements failing the predicate are exactly the first k, the filter returns the list without them |
| ArrayOps.FilterAppend | src/components/schedule-page-client.tsx:228-229 | filtering distributes over concatenation |
| ArrayOps.SortBy | src/components/tasks-page-client.tsx:243-244 | the sort returns a permutation of its input, ordered by the comparator |
| ArrayOps.SortByStable | src/components/tasks-page-client.tsx:243-244 | elements the comparator ties keep their relative input order |
| ArrayOps.SortByCharacterization | src/components/tasks-page-client.tsx:243-244 | a list equals the sort's result if and only if it is sorted, a permutation of the input and stable |
| ArrayOps.SortedStableUnique | src/components/tasks-page-client.tsx:243-244 | two sorted lists that are stable with respect to each other are equal |
| ArrayOps.SortByIdempotent | src/components/tasks-page-client.tsx:243-244 | sorting a sorted result changes nothing |
| ArrayOps.SortedPermutationUnique | src/components/tasks-page-client.tsx:243-244 | with no two elements tied, a sorted permutation is unique |
| ArrayOps.SortByPermutationInvariant | src/components/tasks-page-client.tsx:243-244 | with no ties, the sorted list depends only on the multiset of elements |
| ArrayOps.InsertPosition | src/components/tasks-page-client.tsx:86 | inserting into a sorted list places the element after every element strictly before it and before the rest |
| ArrayOps.AppendIndexSplit | src/components/schedule-page-client.tsx:86 | the stable position of an appended element separates the elements at or before it from those after it |
| ArrayOps.SortByAppend | src/components/schedule-page-client.tsx:86 | sorting a list with one element appended splices that element into the old sorted list at its stable position |
| ArrayOps.Take | src/app/page.tsx:11 | `slice(0, n)` is a prefix of at most n elements, and all of the list when the list is shorter than n |
| ArrayOps.TakeEarliest | src/app/page.tsx:8-11 | an element of a sorted list left out by the slice sorts no earlier than any element kept |
| ArrayOps.FilterSorted | src/app/page.tsx:9-10 | filtering a sorted list leaves it sorted |
| ArrayOps.FilterSortCommute | src/app/page.tsx:9-10 | filtering then stable-sorting gives the same list as stable-sorting then filtering |
| ArrayOps.SortedSelection | src/app/page.tsx:8-11 | filter, sort and slice return sorted elements satisfying the predicate, all of them when few enough, otherwise exactly n |
| Collation.CollateTotal | src/components/schedule-page-client.tsx:230 | `localeCompare` orders any two strings |
| Collation.CollateTransitive | src/components/schedule-page-client.tsx:230 | `localeCompare` order is transitive |
| Collation.CollateAntisymmetric | src/components/schedule-page-client.tsx:230 | on strings of digits and ':', such as the time strings the pages sort, `localeCompare` returns 0 only for identical strings |
| Collation.ColonBeforeDigits | src/components/schedule-page-client.tsx:230 | ':' sorts before every digit, although its code point is above each of them |
| TimePattern.Matches | src/components/schedule-page-client.tsx:56-57 | the regex test passes if and only if the string is in the pattern's language: a one- or two-digit hour 0-23, ':', and minutes 00-59 |
| TimePattern.RunAcceptsIffValid | src/components/schedule-page-client.tsx:56-57 | the automaton run from its start state ends accepting if and only if the string is in the pattern's language |
| TimePattern.RecogniseTime | src/components/schedule-page-client.tsx:56-57 | the single-pass loop answers true exactly for strings in the pattern's language |
| TimePattern.TimePatternLanguage | src/components/schedule-page-client.tsx:56-57 | accepted strings are exactly "HH:mm" and "H:mm" spellings of hours 0-23 and minutes 00-59 |
| TimePattern.TimePatternRejects | src/components/schedule-page-client.tsx:56-57 | "24:00", "12:60", "", "123:00", "7:5" and a trailing space are rejected |
| TimePattern.TimePatternAccepts | src/components/schedule-page-client.tsx:56-57 | "00:00", "9:05" and "23:59" are accepted |
| TimePattern.MinutesOfDay | src/components/schedule-page-client.tsx:56-57 | every accepted string names a time before 24:00 (fewer than 1440 minutes) |
| TimePattern.PaddedTimeRoundTrip | src/components/schedule-page-client.tsx:56-57 | every zero-padded time is accepted, and its hour and minute read back |
| TimePattern.ShortTimeRoundTrip | src/components/schedule-page-client.tsx:56-57 | every one-digit-hour time is accepted, and its hour and minute read back |
| TimePattern.ValidTimeIsSpelled | src/components/schedule-page-client.tsx:56-57 | an accepted string is the spelling of the time it denotes |
| TimePattern.PaddedCollationIsChronological | src/components/schedule-page-client.tsx:230 | for zero-padded times, collation order is clock order |
| TimePattern.ShortHourCollatesOutOfOrder | src/components/schedule-page-client.tsx:56-57 | every accepted one-digit hour 2-9 is earlier than every padded hour 10-19, yet sorts after it |
| TimePattern.ShortLowHourCollatesInOrder | src/components/schedule-page-client.tsx:56-57 | accepted one-digit hours 0 and 1 sort before the padded hours 10-19, in clock order |
| TimePattern.ShortHourAfterPaddedMorning | src/components/schedule-page-client.tsx:56-57 | an accepted one-digit hour 1-9 sorts after every later padded hour "0H:mm", against clock order (hour 0 does not) |
| TimePattern.ShortVsPadded | src/components/schedule-page-client.tsx:230 | a one-digit-hour time sorts before a padded time exactly when its hour is at most the padded hour's tens digit, and after it otherwise |
| TimePattern.ShortVsPaddedExamples | src/components/schedule-page-client.tsx:230 | "3:00" sorts after "20:00" and "0:45" before "00:15", against the clock; "0:30" sorts before "05:00", with it |
| Records.DecimalString | src/components/tasks-page-client.tsx:83 | `toString()` of a non-negative integer is a non-empty string of decimal digits with no leading zero |
| Records.TimestampId | src/components/tasks-page-client.tsx:83 | the id `Date.now().toString()` is a string of digits that reads back as the creation timestamp |
| Records.DecimalRoundTrip | src/components/tasks-page-client.tsx:83 | the timestamp's decimal spelling reads back as the timestamp |
| Records.TimestampIdInjective | src/components/tasks-page-client.tsx:83 | two ids coincide exactly when the creation timestamps do |
| Records.DueLeTotalPreorder | src/components/tasks-page-client.tsx:244 | the due-date comparator `a.dueDate - b.dueDate` is a consistent comparator: total and transitive |
| Records.StartLeTotalPreorder | src/components/schedule-page-client.tsx:230 | the start-time comparator is a consistent comparator |
| Records.StartEquivIffSameStart | src/components/schedule-page-client.tsx:230 | two classes whose start strings consist of digits and ':', such as accepted times, tie exactly when those strings are identical |
| TaskPage.TaskErrors | src/components/tasks-page-client.tsx:58-65 | each field's message is reported exactly when that field fails: "Title is required", "A due date is required.", and the enum message |
| TaskPage.ValidateTask | src/components/tasks-page-client.tsx:58-65 | a task is accepted if and only if its title is non-empty, its date is present and its type is Task, Exam or Reminder; the description is optional and values pass unchanged |
| TaskPage.ValidationAcceptsDisabledDates | src/components/tasks-page-client.tsx:60-62 | the schema accepts a date the picker disables (before today's midnight) |
| TaskPage.SubmitTask | src/components/tasks-page-client.tsx:81-86 | on success the list grows by one, with the new task first carrying the timestamp id and the submitted values and the old list following unchanged; on failure nothing changes |
| TaskPage.TaskTable | src/components/tasks-page-client.tsx:243-244 | the rows are a permutation of the tasks, ordered by due date, with ties in list order |
| TaskPage.TaskTableCharacterization | src/components/tasks-page-client.tsx:243-244 | the table order is the only order with those three properties |
| TaskPage.TableSortInPlaceIsHarmless | src/components/tasks-page-client.tsx:243-244 | the in-place table sort does not change what a later submission's table shows |
| TaskPage.SubmitTaskRowPlacement | src/components/tasks-page-client.tsx:81-86 | a new task adds exactly one row, after tasks due strictly earlier and before the rest, with the other rows in order |
| TaskPage.BadgeVariant | src/components/tasks-page-client.tsx:108-115 | the fallback variant is used exactly for types outside Task, Exam and Reminder; the dashboard's `getTaskBadgeVariant` (src/app/page.tsx:16-23) is the same switch and is modelled by this one function |
| TaskPage.BadgeVariantSeparatesTypes | src/app/page.tsx:16-23 | the three admitted types get three different variants |
| TaskPage.SubmittedTaskBadge | src/components/tasks-page-client.tsx:108-115 | a task created by the form never shows the fallback variant |
| TaskPage.DeclaredTypesOutsideSchema | src/types/index.ts:6 | the declared Spanish types are rejected by the form and shown with the fallback variant |
| TaskPage.TaskLine | src/components/tasks-page-client.tsx:99 | every share line ends in a newline |
| TaskPage.TaskLinesAppend | src/components/tasks-page-client.tsx:98-100 | the lines of two lists concatenate |
| TaskPage.ShareTasks | src/components/tasks-page-client.tsx:96-100 | the share text is the bare header exactly when there are no tasks |
| TaskPage.ShareTasksOrderIndependent | src/components/tasks-page-client.tsx:96-100 | with distinct due dates, the share text depends only on which tasks there are |
| TaskPage.ShareTasksAfterSubmit | src/components/tasks-page-client.tsx:81-100 | a submission adds exactly the new task's line to the share text, at its due-date position |
| SchedulePage.DaysOfWeekFacts | src/components/schedule-page-client.tsx:43-51 | the seven page days are the English half of the declared day names, and no Spanish name is among them |
| SchedulePage.DaysOfWeekDistinct | src/components/schedule-page-client.tsx:43-51 | each page day occurs once |
| SchedulePage.ClassErrors | src/components/schedule-page-client.tsx:53-59 | each field's message is reported exactly when that field fails, with the two times checked independently |
| SchedulePage.ValidateClass | src/components/schedule-page-client.tsx:53-59 | a class is accepted if and only if its subject is non-empty, its day is a page day and both times match the pattern |
| SchedulePage.EndBeforeStartAccepted | src/components/schedule-page-client.tsx:53-59 | a class that ends before it starts is accepted |
| SchedulePage.NewClass | src/components/schedule-page-client.tsx:82-85 | the created class carries the submitted values and an id of digits that reads back as the creation timestamp |
| SchedulePage.SubmitClass | src/components/schedule-page-client.tsx:81-86 | on success the old classes are kept unchanged and the new class comes last; on failure nothing changes |
| SchedulePage.DayColumn | src/components/schedule-page-client.tsx:228-230 | a column holds exactly that day's classes, each as often as in the list, ordered by start time, with ties in list order |
| SchedulePage.DayColumnCharacterization | src/components/schedule-page-client.tsx:228-230 | the column is the only such ordering |
| SchedulePage.Columns | src/components/schedule-page-client.tsx:222-231 | column i holds exactly the classes whose day is the i-th page day |
| SchedulePage.ClassInExactlyOneColumn | src/components/schedule-page-client.tsx:222-231 | a class with a page day appears in exactly one column |
| SchedulePage.ForeignDayInNoColumn | src/components/schedule-page-client.tsx:222-231 | a class with any other day, such as a Spanish name, appears in no column |
| SchedulePage.AppendOtherDayColumn | src/components/schedule-page-client.tsx:86 | appending a class leaves every other day's column unchanged |
| SchedulePage.AppendOwnDayColumn | src/components/schedule-page-client.tsx:86 | appending a class splices it into its day's column after the classes starting at or before it and before the rest |
| SchedulePage.SubmitClassColumns | src/components/schedule-page-client.tsx:81-86 | after a submission, other days' columns are unchanged and the new class sits after the classes starting at or before it |
| SchedulePage.LocationSuffix | src/components/schedule-page-client.tsx:99 | the " at <location>" suffix appears exactly when the location is present and non-empty, and then ends with the location |
| SchedulePage.ClassLine | src/components/schedule-page-client.tsx:99 | every class line ends in a newline |
| SchedulePage.ClassLinesSplice | src/components/schedule-page-client.tsx:98-100 | splicing a class into a column splices its line into the column's lines |
| SchedulePage.DaySection | src/components/schedule-page-client.tsx:95-102 | a day's section is empty exactly when no class has that day |
| SchedulePage.AppendOwnDaySection | src/components/schedule-page-client.tsx:95-102 | appending a class adds exactly its line to its day's section, at its column position |
| SchedulePage.DaySectionAfterSubmit | src/components/schedule-page-client.tsx:81-102 | a submission leaves other days' sections unchanged and adds exactly the new class's line to its day's section |
| SchedulePage.Sections | src/components/schedule-page-client.tsx:94-103 | the sections are empty exactly when no class has one of the given days |
| SchedulePage.ShareSchedule | src/components/schedule-page-client.tsx:92-103 | the share text is the bare header exactly when no class has a page day |
| SchedulePage.DayColumnOrderIndependent | src/components/schedule-page-client.tsx:228-230 | with distinct start times per day, a column depends only on which classes there are |
| SchedulePage.SectionsFollowColumns | src/components/schedule-page-client.tsx:94-103 | the sections depend on the schedule only through the columns |
| SchedulePage.ShareScheduleOrderIndependent | src/components/schedule-page-client.tsx:92-103 | with distinct start times per day, the share text does not depend on the order classes were added in |
| Dashboard.NotPast | src/app/page.tsx:9 | a task due at the current instant still counts as upcoming, one due earlier does not, and every task due later than an upcoming one is upcoming too |
| Dashboard.UpcomingTasks | src/app/page.tsx:8-11 | at most five tasks, each not yet due and from the list, ordered by due date; all tasks not yet due when there are at most five, otherwise exactly five |
| Dashboard.UpcomingTakesEarliest | src/app/page.tsx:8-11 | a task not yet due that is left out is due no earlier than any task listed |
| Dashboard.UpcomingIsTableHead | src/app/page.tsx:8-11 | the list is the first five rows of the task table that are not yet due |
| Dashboard.TodaysClasses | src/app/page.tsx:13-14 | exactly today's classes, ordered by start time, with ties in list order |
| Dashboard.TodaysClassesIsColumn | src/app/page.tsx:13-14 | today's list is the schedule page's column for that day |
| Dashboard.TaskIcon | src/app/page.tsx:25-32 | there is no icon exactly when the badge falls back |
| Dashboard.TaskIconSeparatesTypes | src/app/page.tsx:16-32 | icons distinguish the admitted types exactly as badge variants do |
| SeedData.SeedTaskFacts | src/lib/data.ts:3-32 | four tasks with distinct ids "1" to "4", all with declared Spanish types, so each has the fallback badge and no icon |
| SeedData.TableOfFour | src/lib/data.ts:8-29 | four tasks due in the order 4th, 3rd, 1st, 2nd appear in the table in that order |
| SeedData.SeedTableOrder | src/lib/data.ts:8-29 | the seed table lists ids 4, 3, 1, 2 |
| SeedData.UpcomingOfFour | src/lib/data.ts:8-29 | over four tasks due in the order 4th, 3rd, 1st, 2nd, for every `now` the dashboard drops exactly the tasks already due and lists the rest in table order |
| SeedData.SeedUpcoming | src/lib/data.ts:8-29 | at load time all four seed tasks are upcoming; one millisecond later the one due at load time is gone |
| SeedData.SeedScheduleIds | src/lib/data.ts:34-83 | six classes with distinct ids "cl1" to "cl6", each on a page day |
| SeedData.SeedTimes | src/lib/data.ts:39-80 | every seed time is zero-padded and accepted by the pattern, and every class ends after it starts |
| SeedData.SeedShareAnyOrder | src/lib/data.ts:34-83 | no two seed classes of a day share a start time, so entering the seed classes in any order gives the same share text |
| SeedData.SeedClassesInOneColumn | src/lib/data.ts:34-83 | every seed class shows in exactly one column |
| SeedData.SeedMondayColumn | src/lib/data.ts:36-49 | the Monday column shows cl1 (10:00) before cl2 (13:00) |
| SeedData.SeedSubmitSameStart | src/lib/data.ts:36-49 | a Monday 10:00 class submitted with the form's empty default location is accepted, goes between cl1 and cl2, and gets no location suffix |

## Left out

- Rendering, dialogs, toasts and `form.reset`. These are React UI. The table's "-" for a missing description is display only.
- `navigator.clipboard.writeText`. It is I/O; only the text it receives is modelled.
- date-fns `format`. It is a library call, modelled as an uninterpreted function parameter.
- `toLocaleDateString` and `Date.now()` / `new Date()`. The weekday lookup is locale-dependent and the clock is nondeterministic, so today's weekday name and `now` are parameters. The dashboard reads the clock again for every task inside the filter callback (src/app/page.tsx:9) and once more for today's weekday (src/app/page.tsx:13). The model uses one instant `now` for all of these reads, so a deadline that passes while the filter runs is not modelled.
- Id uniqueness. Two records created in the same millisecond share an id (`Records.TimestampIdInjective` shows ids are exactly as unique as timestamps).
- Persistence and deletion. No part of these views implements either.
- The seed's dashboard wiring. The dashboard reads the seed lists directly; the model takes the lists as parameters and applies the functions to the seed in `SeedData`.
- `TaskPage.TaskErrors`: the validation library's message for a value outside an enum is abbreviated to "Invalid enum value". The library's full text also lists the admitted values.
- `SchedulePage.ClassErrors`: the day error uses the same abbreviated enum message, "Invalid enum value", without the list of admitted days.
- `Collation.CollateLe`: only ':' and the digits are placed as the default collation places them. Other characters are ordered by code point, which is all the time strings need.
- `SeedData.SeedTasks`: the due dates are load time plus a whole number of 86 400 000 ms days. Daylight-saving shifts, and the milliseconds between the separate clock reads in the seed, are not modelled.
- `SeedData.SeedTimes`: states the pattern through `ValidTime`, which the contract of `TimePattern.Matches` proves equal to what the regex test accepts.
- `TaskPage.TaskLine`: the contract states only that each line ends in a newline. The layout `- [type] title - Due: <date>` is the function's definition and is not restated as a contract.
- `SchedulePage.ClassLine`: the contract states only that each line ends in a newline. The layout `  - start-end: subject[ at location]` is the function's definition; the suffix has its own contract (`SchedulePage.LocationSuffix`).

=== FILE: array_ops.dfy ===
/**
 The JavaScript array operations the pages compose: `filter`, `sort` with a
 comparator, and `slice(0, n)`. Since ECMAScript 2019 `Array.prototype.sort`
 must be stable, so for a consistent comparator its result is the unique
 sorted permutation that keeps equal-key elements in their original order.
 That sort is modelled here as an insertion sort over a total preorder `le`
 (`le(a, b)` holds when the comparator returns a value `<= 0`).
 */
module ArrayOps {

  /** `le` is a total preorder: any two elements compare, and `le` is transitive. */
  ghost predicate TotalPreorder<T(!new)>(le: (T, T) -> bool) {
    && (forall a, b :: le(a, b) || le(b, a))
    && (forall a, b, c :: le(a, b) && le(b, c) ==> le(a, c))
  }

  /** `a` and `b` have the same sort key: the comparator returns 0. */
  predicate Equiv<T>(le: (T, T) -> bool, a: T, b: T) {
    le(a, b) && le(b, a)
  }

  predicate Sorted<T>(s: seq<T>, le: (T, T) -> bool) {
    forall i, j :: 0 <= i < j < |s| ==> le(s[i], s[j])
  }

  /** No two different elements of `s` share a sort key. */
  predicate KeysDistinct<T(==)>(s: seq<T>, le: (T, T) -> bool) {
    forall x, y :: x in s && y in s && Equiv(le, x, y) ==> x == y
  }

  /** `s.filter(p)`: the elements satisfying `p`, in their original order. */
  function Filter<T(!new)>(s: seq<T>, p: T -> bool): (r: seq<T>)
    ensures forall x :: x in r <==> x in s && p(x)
    ensures |r| <= |s|
  {
    if s == [] then []
    else (if p(s[0]) then [s[0]] else []) + Filter(s[1..], p)
  }

  /** A filter keeps every occurrence of an element satisfying `p` and none of the others. */
  lemma {:induction false} FilterCount<T(!new)>(s: seq<T>, p: T -> bool)
    ensures forall x :: multiset(Filter(s, p))[x] == if p(x) then multiset(s)[x] else 0
  {
    if s != [] {
      FilterCount(s[1..], p);
      assert s == [s[0]] + s[1..];
      if p(s[0]) {
        assert Filter(s, p) == [s[0]] + Filter(s[1..], p);
      } else {
        assert Filter(s, p) == Filter(s[1..], p);
      }
    }
  }

  /** A filter uses each element at most as often as the list does. */
  lemma FilterSubMultiset<T(!new)>(s: seq<T>, p: T -> bool)
    ensures multiset(Filter(s, p)) <= multiset(s)
  {
    var r := Filter(s, p);
    FilterCount(s, p);
    forall x
      ensures multiset(r)[x] <= multiset(s)[x]
    {
    }
  }

  lemma {:induction false} FilterAppend<T(!new)>(a: seq<T>, b: seq<T>, p: T -> bool)
    ensures Filter(a + b, p) == Filter(a, p) + Filter(b, p)
  {
    if a == [] {
      assert a + b == b;
    } else {
      assert (a + b)[0] == a[0] && (a + b)[1..] == a[1..] + b;
      FilterAppend(a[1..], b, p);
      if p(a[0]) {
        assert Filter(a + b, p) == [a[0]] + Filter(a[1..] + b, p);
        assert Filter(a, p) == [a[0]] + Filter(a[1..], p);
      } else {
        assert Filter(a + b, p) == Filter(a[1..] + b, p);
        assert Filter(a, p) == Filter(a[1..], p);
      }
    }
  }

  /** The elements of `s` whose key equals `k`'s, in their order in `s`. */
  function Block<T>(s: seq<T>, le: (T, T) -> bool, k: T): seq<T>
  {
    if s == [] then []
    else (if Equiv(le, s[0], k) then [s[0]] else []) + Block(s[1..], le, k)
  }

  /** `r` keeps the relative order of every group of equal-key elements of `s`. */
  ghost predicate Stable<T(!new)>(s: seq<T>, r: seq<T>, le: (T, T) -> bool) {
    forall k :: Block(r, le, k) == Block(s, le, k)
  }

  lemma {:induction false} BlockMember<T>(s: seq<T>, le: (T, T) -> bool, k: T, x: T)
    requires x in Block(s, le, k)
    ensures x in s && Equiv(le, x, k)
  {
    if s != [] {
      if x != s[0] || !Equiv(le, s[0], k) {
        BlockMember(s[1..], le, k, x);
      }
    }
  }

  lemma {:induction false} BlockAppend<T>(a: seq<T>, b: seq<T>, le: (T, T) -> bool, k: T)
    ensures Block(a + b, le, k) == Block(a, le, k) + Block(b, le, k)
  {
    if a == [] {
      assert a + b == b;
    } else {
      var head := if Equiv(le, a[0], k) then [a[0]] else [];
      assert (a + b)[0] == a[0] && (a + b)[1..] == a[1..] + b;
      assert Block(a + b, le, k) == head + Block(a[1..] + b, le, k);
      BlockAppend(a[1..], b, le, k);
    }
  }

  /** Inserting `x` in front of the first element it is `le` to. */
  function Insert<T>(x: T, s: seq<T>, le: (T, T) -> bool): (r: seq<T>)
    ensures |r| == |s| + 1
  {
    if s == [] then [x]
    else if le(x, s[0]) then [x] + s
    else [s[0]] + Insert(x, s[1..], le)
  }

  /** Inserting adds exactly one occurrence of `x`. */
  lemma {:induction false} InsertCount<T>(x: T, s: seq<T>, le: (T, T) -> bool)
    ensures multiset(Insert(x, s, le)) == multiset(s) + multiset{x}
  {
    if s != [] && !le(x, s[0]) {
      InsertCount(x, s[1..], le);
      assert s == [s[0]] + s[1..];
      assert Insert(x, s, le) == [s[0]] + Insert(x, s[1..], le);
    }
  }

  lemma {:induction false} InsertSorted<T(!new)>(x: T, s: seq<T>, le: (T, T) -> bool)
    requires TotalPreorder(le)
    requires Sorted(s, le)
    ensures Sorted(Insert(x, s, le), le)
  {
    if s == [] {
    } else if le(x, s[0]) {
      assert Insert(x, s, le) == [x] + s;
      forall j | 0 < j <= |s|
        ensures le(x, ([x] + s)[j])
      {
        if j > 1 {
          assert le(s[0], s[j - 1]);
        }
      }
    } else {
      var r' := Insert(x, s[1..], le);
      assert Insert(x, s, le) == [s[0]] + r';
      InsertSorted(x, s[1..], le);
      InsertCount(x, s[1..], le);
      forall i | 0 <= i < |r'|
        ensures le(s[0], r'[i])
      {
        assert r'[i] in multiset(r');
        if r'[i] != x {
          assert r'[i] in multiset(s[1..]);
          var j :| 0 <= j < |s[1..]| && s[1..][j] == r'[i];
          assert s[j + 1] == r'[i];
        }
      }
    }
  }

  /** `[...s].sort(cmp)`, the stable sort by `le`. */
  function SortBy<T(!new)>(s: seq<T>, le: (T, T) -> bool): (r: seq<T>)
    requires TotalPreorder(le)
    ensures multiset(r) == multiset(s)
    ensures Sorted(r, le)
    ensures |r| == |s|
  {
    if s == [] then []
    else
      var rest := SortBy(s[1..], le);
      assert s == [s[0]] + s[1..];
      InsertSorted(s[0], rest, le);
      InsertCount(s[0], rest, le);
      Insert(s[0], rest, le)
  }

  lemma {:induction false} BlockInsert<T(!new)>(x: T, t: seq<T>, le: (T, T) -> bool, k: T)
    requires TotalPreorder(le)
    ensures Block(Insert(x, t, le), le, k) == (if Equiv(le, x, k) then [x] else []) + Block(t, le, k)
  {
    if t == [] {
      assert Insert(x, t, le) == [x];
      assert [x][1..] == [];
    } else if le(x, t[0]) {
      assert Insert(x, t, le) == [x] + t;
      assert ([x] + t)[1..] == t;
    } else {
      var r' := Insert(x, t[1..], le);
      assert Insert(x, t, le) == [t[0]] + r';
      BlockInsert(x, t[1..], le, k);
      assert ([t[0]] + r')[1..] == r';
      var head := if Equiv(le, t[0], k) then [t[0]] else [];
      assert Block(Insert(x, t, le), le, k) == head + Block(r', le, k);
      assert Block(t, le, k) == head + Block(t[1..], le, k);
      if Equiv(le, x, k) {
        assert !le(k, t[0]);
        assert head == [];
      }
    }
  }

  /** The sort keeps equal-key elements in their original order. */
  lemma {:induction false} SortByStable<T(!new)>(s: seq<T>, le: (T, T) -> bool)
    requires TotalPreorder(le)
    ensures Stable(s, SortBy(s, le), le)
  {
    if s != [] {
      SortByStable(s[1..], le);
      forall k
        ensures Block(SortBy(s, le), le, k) == Block(s, le, k)
      {
        BlockInsert(s[0], SortBy(s[1..], le), le, k);
      }
    }
  }

  lemma BlockOfFirst<T(!new)>(s: seq<T>, le: (T, T) -> bool)
    requires TotalPreorder(le)
    requires s != []
    ensures Block(s, le, s[0]) == [s[0]] + Block(s[1..], le, s[0])
  {
    assert Equiv(le, s[0], s[0]);
  }

  /** Two sorted sequences that agree on every equal-key group are equal. */
  lemma {:induction false} SortedStableUnique<T(!new)>(r1: seq<T>, r2: seq<T>, le: (T, T) -> bool)
    requires TotalPreorder(le)
    requires Sorted(r1, le) && Sorted(r2, le)
    requires Stable(r1, r2, le)
    ensures r1 == r2
    decreases |r1| + |r2|
  {
    if r1 != [] {
      BlockOfFirst(r1, le);
      assert Block(r2, le, r1[0]) != [];
    }
    if r2 != [] {
      BlockOfFirst(r2, le);
      assert Block(r1, le, r2[0]) != [];
    }
    if r1 != [] {
      var a, b := r1[0], r2[0];
      assert Equiv(le, a, a) && Equiv(le, b, b);
      assert a in Block(r1, le, a);
      BlockMember(r2, le, a, a);
      assert le(b, a);
      assert b in Block(r2, le, b);
      BlockMember(r1, le, b, b);
      assert le(a, b);
      assert Block(r1, le, a)[0] == a;
      assert Block(r2, le, a)[0] == b;
      assert a == b;
      forall k
        ensures Block(r1[1..], le, k) == Block(r2[1..], le, k)
      {
        var h := if Equiv(le, a, k) then [a] else [];
        assert Block(r1, le, k) == h + Block(r1[1..], le, k);
        assert Block(r2, le, k) == h + Block(r2[1..], le, k);
        assert Block(r1, le, k) == Block(r2, le, k);
        assert Block(r1[1..], le, k) == (h + Block(r1[1..], le, k))[|h|..];
        assert Block(r2[1..], le, k) == (h + Block(r2[1..], le, k))[|h|..];
      }
      SortedStableUnique(r1[1..], r2[1..], le);
      assert r1 == [a] + r1[1..];
      assert r2 == [b] + r2[1..];
    }
  }

  /** The stable sort is the ONLY sorted, stable permutation of its input. */
  lemma SortByCharacterization<T(!new)>(s: seq<T>, r: seq<T>, le: (T, T) -> bool)
    requires TotalPreorder(le)
    ensures r == SortBy(s, le) <==> Sorted(r, le) && multiset(r) == multiset(s) && Stable(s, r, le)
  {
    SortByStable(s, le);
    if Sorted(r, le) && multiset(r) == multiset(s) && Stable(s, r, le) {
      SortedStableUnique(r, SortBy(s, le), le);
    }
  }

  /** Sorting an already sorted result changes nothing. */
  lemma SortByIdempotent<T(!new)>(s: seq<T>, le: (T, T) -> bool)
    requires TotalPreorder(le)
    ensures SortBy(SortBy(s, le), le) == SortBy(s, le)
  {
    var r := SortBy(s, le);
    SortByCharacterization(r, r, le);
  }

  /** Prepending to a sorted copy and sorting gives what prepending to the original and sorting
      gives, however many elements are prepended. */
  lemma {:induction false} SortByPrependSorted<T(!new)>(a: seq<T>, s: seq<T>, le: (T, T) -> bool)
    requires TotalPreorder(le)
    ensures SortBy(a + SortBy(s, le), le) == SortBy(a + s, le)
  {
    if a == [] {
      assert a + SortBy(s, le) == SortBy(s, le);
      assert a + s == s;
      SortByIdempotent(s, le);
    } else {
      assert (a + SortBy(s, le))[1..] == a[1..] + SortBy(s, le);
      assert (a + s)[1..] == a[1..] + s;
      SortByPrependSorted(a[1..], s, le);
    }
  }

  /** Two sorted permutations of each other are equal when no two different elements share a key. */
  lemma {:induction false} SortedPermutationUnique<T(!new)>(r1: seq<T>, r2: seq<T>, le: (T, T) -> bool)
    requires TotalPreorder(le)
    requires Sorted(r1, le) && Sorted(r2, le)
    requires multiset(r1) == multiset(r2)
    requires KeysDistinct(r1, le)
    ensures r1 == r2
  {
    if r1 != [] {
      assert r2 != [] by {
        assert r1[0] in multiset(r1);
      }
      var a, b := r1[0], r2[0];
      assert a in multiset(r2) && b in multiset(r1);
      assert le(b, a) by {
        var j :| 0 <= j < |r2| && r2[j] == a;
        if j > 0 { assert le(r2[0], r2[j]); }
      }
      assert le(a, b) by {
        var j :| 0 <= j < |r1| && r1[j] == b;
        if j > 0 { assert le(r1[0], r1[j]); }
      }
      assert a in r1 && b in r1 && Equiv(le, a, b);
      assert a == b;
      assert r1 == [a] + r1[1..];
      assert r2 == [b] + r2[1..];
      assert multiset(r1[1..]) == multiset(r1) - multiset{a};
      assert multiset(r2[1..]) == multiset(r2) - multiset{a};
      assert multiset(r1[1..]) == multiset(r2[1..]);
      SortedPermutationUnique(r1[1..], r2[1..], le);
    }
  }

  /** With pairwise-distinct keys the sort's result does not depend on the input order. */
  lemma SortByPermutationInvariant<T(!new)>(s1: seq<T>, s2: seq<T>, le: (T, T) -> bool)
    requires TotalPreorder(le)
    requires multiset(s1) == multiset(s2)
    requires KeysDistinct(s1, le)
    ensures SortBy(s1, le) == SortBy(s2, le)
  {
    var r1, r2 := SortBy(s1, le), SortBy(s2, le);
    forall x | x in r1
      ensures x in s1
    {
      assert x in multiset(r1);
    }
    SortedPermutationUnique(r1, r2, le);
  }

  /** Number of leading elements of `s` that `x` is not `le` to: where `Insert` puts `x`. */
  function InsertIndex<T>(x: T, s: seq<T>, le: (T, T) -> bool): (i: nat)
    ensures i <= |s|
  {
    if s == [] || le(x, s[0]) then 0 else 1 + InsertIndex(x, s[1..], le)
  }

  /** `Insert` splices `x` in after the elements strictly before it and before all others. */
  lemma InsertPosition<T(!new)>(x: T, s: seq<T>, le: (T, T) -> bool)
    requires TotalPreorder(le)
    requires Sorted(s, le)
    ensures Insert(x, s, le) == s[..InsertIndex(x, s, le)] + [x] + s[InsertIndex(x, s, le)..]
    ensures forall j :: 0 <= j < InsertIndex(x, s, le) ==> !le(x, s[j])
    ensures forall j :: InsertIndex(x, s, le) <= j < |s| ==> le(x, s[j])
  {
    InsertSplice(x, s, le);
    InsertIndexLower(x, s, le);
    InsertIndexUpper(x, s, le);
  }

  /** Whatever the order of `s`, `Insert` splices `x` in at `InsertIndex`. */
  lemma {:induction false} InsertSplice<T>(x: T, s: seq<T>, le: (T, T) -> bool)
    ensures Insert(x, s, le) == s[..InsertIndex(x, s, le)] + [x] + s[InsertIndex(x, s, le)..]
  {
    if s == [] || le(x, s[0]) {
      assert s[..0] == [] && s[0..] == s;
    } else {
      var r' := Insert(x, s[1..], le);
      assert Insert(x, s, le) == [s[0]] + r';
      InsertSplice(x, s[1..], le);
      var i := InsertIndex(x, s[1..], le);
      assert InsertIndex(x, s, le) == i + 1;
      assert s[..i + 1] == [s[0]] + s[1..][..i];
      assert s[i + 1..] == s[1..][i..];
      assert [s[0]] + (s[1..][..i] + [x] + s[1..][i..]) == ([s[0]] + s[1..][..i]) + [x] + s[1..][i..];
    }
  }

  /** Whatever the order of `s`, `x` is not `le` to any element before `InsertIndex`. */
  lemma {:induction false} InsertIndexLower<T>(x: T, s: seq<T>, le: (T, T) -> bool)
    ensures forall j :: 0 <= j < InsertIndex(x, s, le) ==> !le(x, s[j])
  {
    if s != [] && !le(x, s[0]) {
      InsertIndexLower(x, s[1..], le);
      forall j | 0 <= j < InsertIndex(x, s, le)
        ensures !le(x, s[j])
      {
        if j > 0 {
          assert s[j] == s[1..][j - 1];
        }
      }
    }
  }

  /** In a sorted list, `x` is `le` to every element from `InsertIndex` on. */
  lemma {:induction false} InsertIndexUpper<T(!new)>(x: T, s: seq<T>, le: (T, T) -> bool)
    requires TotalPreorder(le)
    requires Sorted(s, le)
    ensures forall j :: InsertIndex(x, s, le) <= j < |s| ==> le(x, s[j])
  {
    if s == [] {
    } else if le(x, s[0]) {
      forall j | 0 <= j < |s|
        ensures le(x, s[j])
      {
        if j > 0 {
          assert le(s[0], s[j]);
        }
      }
    } else {
      InsertIndexUpper(x, s[1..], le);
      forall j | InsertIndex(x, s, le) <= j < |s|
        ensures le(x, s[j])
      {
        assert s[j] == s[1..][j - 1];
      }
    }
  }

  /** Number of leading elements of `s` that are `le` to `x`: where a stable sort puts an
      element appended last. */
  function AppendIndex<T>(x: T, s: seq<T>, le: (T, T) -> bool): (i: nat)
    ensures i <= |s|
  {
    if s == [] || !le(s[0], x) then 0 else 1 + AppendIndex(x, s[1..], le)
  }

  lemma {:induction false} AppendIndexSplit<T(!new)>(x: T, s: seq<T>, le: (T, T) -> bool)
    requires TotalPreorder(le)
    requires Sorted(s, le)
    ensures forall j :: 0 <= j < AppendIndex(x, s, le) ==> le(s[j], x)
    ensures forall j :: AppendIndex(x, s, le) <= j < |s| ==> !le(s[j], x)
  {
    if s == [] {
    } else if !le(s[0], x) {
      forall j | 0 <= j < |s|
        ensures !le(s[j], x)
      {
        assert le(s[0], s[j]);
      }
    } else {
      AppendIndexSplit(x, s[1..], le);
      forall j | 0 < j < |s|
        ensures s[j] == s[1..][j - 1]
      {
      }
    }
  }

  /** Putting `x` between a prefix of elements `le` to it and a suffix of elements not `le`
      to it keeps a sorted list sorted. */
  lemma SplitInsertSorted<T(!new)>(lo: seq<T>, x: T, hi: seq<T>, le: (T, T) -> bool)
    requires TotalPreorder(le)
    requires Sorted(lo + hi, le)
    requires forall j :: 0 <= j < |lo| ==> le(lo[j], x)
    requires forall j :: 0 <= j < |hi| ==> !le(hi[j], x)
    ensures Sorted(lo + [x] + hi, le)
  {
    var r := lo + [x] + hi;
    var t := lo + hi;
    var i := |lo|;
    forall a, b | 0 <= a < b < |r|
      ensures le(r[a], r[b])
    {
      if b < i {
        assert r[a] == t[a] && r[b] == t[b];
      } else if a < i && b == i {
        assert r[a] == lo[a];
      } else if a < i {
        assert r[a] == t[a] && r[b] == t[b - 1];
      } else if a == i {
        assert r[b] == hi[b - i - 1];
      } else {
        assert r[a] == t[a - 1] && r[b] == t[b - 1];
      }
    }
  }

  /** The equal-key blocks of `lo + [x] + hi` are those of `lo + hi + [x]` when no element of
      `hi` is equivalent to `x`. */
  lemma SplitInsertBlocks<T(!new)>(lo: seq<T>, x: T, hi: seq<T>, le: (T, T) -> bool, k: T)
    requires TotalPreorder(le)
    requires forall j :: 0 <= j < |hi| ==> !le(hi[j], x)
    ensures Block(lo + [x] + hi, le, k) == Block(lo + hi + [x], le, k)
  {
    BlockAppend(lo + [x], hi, le, k);
    BlockAppend(lo, [x], le, k);
    BlockAppend(lo + hi, [x], le, k);
    BlockAppend(lo, hi, le, k);
    assert Block([x], le, k) == (if Equiv(le, x, k) then [x] else []) + Block([], le, k);
    if Equiv(le, x, k) {
      forall j | 0 <= j < |hi|
        ensures !Equiv(le, hi[j], k)
      {
        assert !le(hi[j], x) && le(k, x);
      }
      BlockNone(hi, le, k);
    }
  }

  lemma {:induction false} BlockNone<T>(s: seq<T>, le: (T, T) -> bool, k: T)
    requires forall j :: 0 <= j < |s| ==> !Equiv(le, s[j], k)
    ensures Block(s, le, k) == []
  {
    if s != [] {
      assert !Equiv(le, s[0], k);
      BlockNone(s[1..], le, k);
    }
  }

  /** Sorting a list with one element appended places that element after every element
      `le` to it and before all others, the rest keeping their sorted order. */
  lemma SortByAppend<T(!new)>(s: seq<T>, x: T, le: (T, T) -> bool)
    requires TotalPreorder(le)
    ensures var sorted := SortBy(s, le);
      var i := AppendIndex(x, sorted, le);
      SortBy(s + [x], le) == sorted[..i] + [x] + sorted[i..]
  {
    var sorted := SortBy(s, le);
    var i := AppendIndex(x, sorted, le);
    AppendIndexSplit(x, sorted, le);
    var lo, hi := sorted[..i], sorted[i..];
    assert sorted == lo + hi;
    var r := lo + [x] + hi;
    SplitInsertSorted(lo, x, hi, le);
    assert multiset(r) == multiset(s + [x]) by {
      assert multiset(r) == multiset(lo) + multiset([x]) + multiset(hi);
      assert multiset(sorted) == multiset(lo) + multiset(hi);
    }
    SortByStable(s, le);
    forall k
      ensures Block(r, le, k) == Block(s + [x], le, k)
    {
      SplitInsertBlocks(lo, x, hi, le, k);
      BlockAppend(sorted, [x], le, k);
      BlockAppend(s, [x], le, k);
    }
    SortByCharacterization(s + [x], r, le);
  }

  /** Appending to a sorted pair an element that sorts with the first and before the second
      puts it between them. */
  lemma AppendBetweenPair<T>(a: T, c: T, b: T, le: (T, T) -> bool)
    requires le(a, c) && !le(b, c)
    ensures var k := AppendIndex(c, [a, b], le); [a, b][..k] + [c] + [a, b][k..] == [a, c, b]
  {
    assert [a, b][1..] == [b];
    assert AppendIndex(c, [b], le) == 0;
    assert [a, b][..1] + [c] + [a, b][1..] == [a, c, b];
  }

  /** `s.slice(0, n)`: the longest prefix of `s` of length at most `n`. */
  function Take<T>(s: seq<T>, n: nat): (r: seq<T>)
    ensures r <= s
    ensures |r| <= n
    ensures |r| == n || r == s
    ensures forall x :: x in r ==> x in s
  {
    if |s| <= n then s else s[..n]
  }

  /** A prefix of a sorted list is sorted and uses each element at most as often as the list. */
  lemma TakeSorted<T>(s: seq<T>, n: nat, le: (T, T) -> bool)
    requires Sorted(s, le)
    ensures Sorted(Take(s, n), le)
    ensures multiset(Take(s, n)) <= multiset(s)
  {
    var r := Take(s, n);
    assert s == r + s[|r|..];
    assert multiset(s) == multiset(r) + multiset(s[|r|..]);
  }

  /** An element a prefix of a sorted list leaves out sorts no earlier than any it keeps. */
  lemma TakeEarliest<T>(s: seq<T>, n: nat, le: (T, T) -> bool, t: T, u: T)
    requires Sorted(s, le)
    requires t in s && t !in Take(s, n)
    requires u in Take(s, n)
    ensures le(u, t)
  {
    var r := Take(s, n);
    var i :| 0 <= i < |r| && r[i] == u;
    var j :| 0 <= j < |s| && s[j] == t;
    assert r == s[..|r|];
    assert forall k :: 0 <= k < |r| ==> r[k] in r;
    assert j >= |r|;
    assert s[i] == u;
  }

  /** In a sorted list the head is `le` to every later element. */
  lemma SortedHead<T>(s: seq<T>, le: (T, T) -> bool, x: T)
    requires Sorted(s, le) && s != []
    requires x in s[1..]
    ensures le(s[0], x)
  {
    var m :| 0 <= m < |s| - 1 && s[1..][m] == x;
    assert s[m + 1] == x;
  }

  /** Filtering keeps a sorted list sorted. */
  lemma {:induction false} FilterSorted<T(!new)>(s: seq<T>, p: T -> bool, le: (T, T) -> bool)
    requires Sorted(s, le)
    ensures Sorted(Filter(s, p), le)
  {
    if s != [] {
      var rest := Filter(s[1..], p);
      FilterSorted(s[1..], p, le);
      if p(s[0]) {
        var r := [s[0]] + rest;
        forall i, j | 0 <= i < j < |r|
          ensures le(r[i], r[j])
        {
          if i == 0 {
            SortedHead(s, le, rest[j - 1]);
          }
        }
      }
    }
  }

  /** Filtering and taking an equal-key block commute. */
  lemma {:induction false} BlockFilter<T(!new)>(s: seq<T>, p: T -> bool, le: (T, T) -> bool, k: T)
    ensures Block(Filter(s, p), le, k) == Filter(Block(s, le, k), p)
  {
    if s != [] {
      var a := if p(s[0]) then [s[0]] else [];
      var b := if Equiv(le, s[0], k) then [s[0]] else [];
      BlockAppend(a, Filter(s[1..], p), le, k);
      FilterAppend(b, Block(s[1..], le, k), p);
      BlockFilter(s[1..], p, le, k);
      assert Block(a, le, k) == Filter(b, p) by {
        if p(s[0]) {
          assert Block(a, le, k) == b + Block([], le, k);
        }
        if Equiv(le, s[0], k) {
          assert Filter(b, p) == a + Filter([], p);
        }
      }
    }
  }

  /** Filtering before or after a stable sort gives the same list. */
  lemma FilterSortCommute<T(!new)>(s: seq<T>, p: T -> bool, le: (T, T) -> bool)
    requires TotalPreorder(le)
    ensures SortBy(Filter(s, p), le) == Filter(SortBy(s, le), p)
  {
    var sorted := SortBy(s, le);
    var r := Filter(sorted, p);
    FilterSorted(sorted, p, le);
    assert multiset(r) == multiset(Filter(s, p)) by {
      FilterCount(sorted, p);
      FilterCount(s, p);
      forall x
        ensures multiset(r)[x] == multiset(Filter(s, p))[x]
      {
      }
    }
    SortByStable(s, le);
    forall k
      ensures Block(r, le, k) == Block(Filter(s, p), le, k)
    {
      BlockFilter(sorted, p, le, k);
      BlockFilter(s, p, le, k);
    }
    SortByCharacterization(Filter(s, p), r, le);
  }

  /** The first `n` elements of `s` satisfying `p`, in sorted order. */
  lemma SortedSelection<T(!new)>(s: seq<T>, p: T -> bool, le: (T, T) -> bool, n: nat)
    requires TotalPreorder(le)
    ensures forall x :: x in Take(SortBy(Filter(s, p), le), n) ==> x in s && p(x)
    ensures multiset(Take(SortBy(Filter(s, p), le), n)) <= multiset(s)
    ensures Sorted(Take(SortBy(Filter(s, p), le), n), le)
    ensures |Filter(s, p)| <= n ==> multiset(Take(SortBy(Filter(s, p), le), n)) == multiset(Filter(s, p))
    ensures |Filter(s, p)| >= n ==> |Take(SortBy(Filter(s, p), le), n)| == n
  {
    var f := Filter(s, p);
    var sorted := SortBy(f, le);
    TakeSorted(sorted, n, le);
    FilterSubMultiset(s, p);
    forall x | x in sorted
      ensures x in f
    {
      assert multiset(sorted)[x] > 0;
    }
  }

  /** Sorting a list that is already sorted leaves it as it is. */
  lemma SortByOfSorted<T(!new)>(s: seq<T>, le: (T, T) -> bool)
    requires TotalPreorder(le)
    requires Sorted(s, le)
    ensures SortBy(s, le) == s
  {
    SortByCharacterization(s, s, le);
  }

  /** When the elements failing `p` are exactly the first `k`, the filter drops exactly them. */
  lemma FilterDropsPrefix<T(!new)>(s: seq<T>, k: nat, p: T -> bool)
    requires k <= |s|
    requires forall i :: 0 <= i < k ==> !p(s[i])
    requires forall i :: k <= i < |s| ==> p(s[i])
    ensures Filter(s, p) == s[k..]
  {
    var a, b := s[..k], s[k..];
    assert s == a + b;
    forall j | 0 <= j < |a|
      ensures !p(a[j])
    {
      assert a[j] == s[j];
    }
    forall j | 0 <= j < |b|
      ensures p(b[j])
    {
      assert b[j] == s[k + j];
    }
    FilterAppend(a, b, p);
    FilterNone(a, p);
    FilterAll(b, p);
  }

  /** A list with no element satisfying `p` filters to nothing. */
  lemma {:induction false} FilterNone<T(!new)>(s: seq<T>, p: T -> bool)
    requires forall k :: 0 <= k < |s| ==> !p(s[k])
    ensures Filter(s, p) == []
  {
    if s != [] {
      assert !p(s[0]);
      FilterNone(s[1..], p);
    }
  }

  /** A list whose every element satisfies `p` filters to itself. */
  lemma {:induction false} FilterAll<T(!new)>(s: seq<T>, p: T -> bool)
    requires forall k :: 0 <= k < |s| ==> p(s[k])
    ensures Filter(s, p) == s
  {
    if s != [] {
      assert p(s[0]);
      FilterAll(s[1..], p);
      assert s == [s[0]] + s[1..];
    }
  }
}

=== FILE: collation.dfy ===
/**
 `String.prototype.localeCompare` as the pages use it to order classes by
 their start-time strings. Under the default collation punctuation sorts
 before digits, so ':' comes before '0'..'9' (the opposite of code-point
 order, where ':' follows '9'). Strings are compared lexicographically by a
 per-character weight; a proper prefix sorts first.
 */
module Collation {

  /** Collation weight: ':' lowest, then the digits in numeric order, then every
      other character in code-point order. */
  function Weight(c: char): nat
  {
    if c == ':' then 0
    else if '0' <= c <= '9' then 1 + (c as int - '0' as int)
    else 11 + c as int
  }

  lemma WeightInjective(a: char, b: char)
    ensures Weight(a) == Weight(b) ==> a == b
  {
  }

  /** `a.localeCompare(b) <= 0`. */
  predicate CollateLe(a: string, b: string)
  {
    if |a| == 0 then true
    else if |b| == 0 then false
    else if Weight(a[0]) != Weight(b[0]) then Weight(a[0]) < Weight(b[0])
    else CollateLe(a[1..], b[1..])
  }

  lemma {:induction false} CollateReflexive(a: string)
    ensures CollateLe(a, a)
  {
    if |a| > 0 {
      CollateReflexive(a[1..]);
    }
  }

  /** Any two strings compare. */
  lemma {:induction false} CollateTotal(a: string, b: string)
    ensures CollateLe(a, b) || CollateLe(b, a)
  {
    if |a| > 0 && |b| > 0 && Weight(a[0]) == Weight(b[0]) {
      CollateTotal(a[1..], b[1..]);
    }
  }

  lemma {:induction false} CollateTransitive(a: string, b: string, c: string)
    requires CollateLe(a, b) && CollateLe(b, c)
    ensures CollateLe(a, c)
  {
    if |a| > 0 && |b| > 0 && |c| > 0 && Weight(a[0]) == Weight(b[0]) == Weight(c[0]) {
      CollateTransitive(a[1..], b[1..], c[1..]);
    }
  }

  /** Under the modelled collation only equal strings compare as equal. For the real
      `localeCompare` this is guaranteed only on strings of digits and ':', such as the time
      strings the pages sort; elsewhere canonically equivalent strings also compare as 0. */
  lemma {:induction false} CollateAntisymmetric(a: string, b: string)
    requires CollateLe(a, b) && CollateLe(b, a)
    ensures a == b
  {
    if |a| > 0 && |b| > 0 {
      WeightInjective(a[0], b[0]);
      CollateAntisymmetric(a[1..], b[1..]);
      assert a == [a[0]] + a[1..];
      assert b == [b[0]] + b[1..];
    }
  }

  /** ':' sorts before every digit, although its code point follows them all; so "1:00"
      precedes "10:00", which code-point order would reverse. */
  lemma ColonBeforeDigits(d: char)
    requires '0' <= d <= '9'
    ensures CollateLe([':'], [d]) && !CollateLe([d], [':'])
    ensures ':' as int > d as int
  {
  }
}

=== FILE: dashboard.dfy ===
/**
 The dashboard (src/app/page.tsx): the five nearest deadlines that have not
 passed, today's classes, and the badge and icon of a task type. The current
 instant `now` and today's weekday name (`toLocaleDateString` with the
 "en-US" locale) are parameters.
 */
module Dashboard {
  import opened ArrayOps
  import opened Records
  import opened TaskPage
  import opened SchedulePage

  /** How many deadlines the dashboard lists. */
  const UpcomingLimit: nat := 5

  /** `task => new Date(task.dueDate) >= new Date()`. */
  function NotPast(now: int): (notPast: Task -> bool)
    ensures forall t: Task :: t.dueDate == now ==> notPast(t)
    ensures forall t: Task :: t.dueDate < now ==> !notPast(t)
    ensures forall t, u :: notPast(t) && DueLe(t, u) ==> notPast(u)
  {
    (t: Task) => t.dueDate >= now
  }

  /** `upcomingTasks`: tasks not yet due, by due date, at most five. */
  function UpcomingTasks(tasks: seq<Task>, now: int): (r: seq<Task>)
    ensures |r| <= UpcomingLimit
    ensures forall t :: t in r ==> t in tasks && t.dueDate >= now
    ensures multiset(r) <= multiset(tasks)
    ensures Sorted(r, DueLe)
    ensures |Filter(tasks, NotPast(now))| <= UpcomingLimit ==> multiset(r) == multiset(Filter(tasks, NotPast(now)))
    ensures |Filter(tasks, NotPast(now))| >= UpcomingLimit ==> |r| == UpcomingLimit
  {
    DueLeTotalPreorder();
    SortedSelection(tasks, NotPast(now), DueLe, UpcomingLimit);
    Take(SortBy(Filter(tasks, NotPast(now)), DueLe), UpcomingLimit)
  }

  /** The list takes the earliest deadlines: a task not yet due that is left out is due no
      earlier than any task listed. */
  lemma UpcomingTakesEarliest(tasks: seq<Task>, now: int, t: Task, u: Task)
    requires t in tasks && t.dueDate >= now && t !in UpcomingTasks(tasks, now)
    requires u in UpcomingTasks(tasks, now)
    ensures u.dueDate <= t.dueDate
  {
    DueLeTotalPreorder();
    var sorted := SortBy(Filter(tasks, NotPast(now)), DueLe);
    assert t in Filter(tasks, NotPast(now));
    assert t in multiset(sorted);
    TakeEarliest(sorted, UpcomingLimit, DueLe, t, u);
  }

  /** The dashboard lists the first five rows of the task table that are not yet due. */
  lemma UpcomingIsTableHead(tasks: seq<Task>, now: int)
    ensures UpcomingTasks(tasks, now) == Take(Filter(TaskTable(tasks), NotPast(now)), UpcomingLimit)
  {
    DueLeTotalPreorder();
    FilterSortCommute(tasks, NotPast(now), DueLe);
  }

  /** `todaysClasses`: the classes held on `today`, by start time. */
  function TodaysClasses(schedule: seq<ClassItem>, today: string): (r: seq<ClassItem>)
    ensures forall c :: multiset(r)[c] == if c.day == today then multiset(schedule)[c] else 0
    ensures Sorted(r, StartLe)
    ensures Stable(Filter(schedule, OnDay(today)), r, StartLe)
  {
    DayColumn(schedule, today)
  }

  /** Today's list on the dashboard is today's column on the schedule page. */
  lemma TodaysClassesIsColumn(schedule: seq<ClassItem>, i: nat)
    requires i < |DaysOfWeek|
    ensures TodaysClasses(schedule, DaysOfWeek[i]) == Columns(schedule)[i]
  {
    var r := TodaysClasses(schedule, DaysOfWeek[i]);
    DayColumnCharacterization(schedule, DaysOfWeek[i], r);
  }

  datatype Icon = AlertTriangle | CheckCircle | Clock

  /** `getTaskIcon`: an icon for each admitted type, none for any other. */
  function TaskIcon(kind: string): (r: Option<Icon>)
    ensures r.None? <==> BadgeVariant(kind) == Outline
  {
    match kind
    case "Exam" => Some(AlertTriangle)
    case "Task" => Some(CheckCircle)
    case "Reminder" => Some(Clock)
    case _ => None
  }

  /** Icons, like badge variants, tell the admitted types apart. */
  lemma TaskIconSeparatesTypes(a: string, b: string)
    requires a in TaskTypes && b in TaskTypes
    ensures TaskIcon(a) == TaskIcon(b) <==> BadgeVariant(a) == BadgeVariant(b)
  {
    BadgeVariantSeparatesTypes(a, b);
  }
}

=== FILE: digits.dfy ===
/**
 Decimal digit characters and their values, shared by the time pattern and
 the decimal timestamp ids.
 */
module Digits {
  predicate IsDigit(c: char) { '0' <= c <= '9' }

  function DigitValue(c: char): (d: nat)
    requires IsDigit(c)
    ensures d < 10
  {
    c as int - '0' as int
  }

  function DigitChar(d: nat): (c: char)
    requires d < 10
    ensures IsDigit(c) && DigitValue(c) == d
  {
    ('0' as int + d) as char
  }

  lemma DigitCharOfValue(c: char)
    requires IsDigit(c)
    ensures DigitChar(DigitValue(c)) == c
  {
  }
}

=== FILE: records.dfy ===
/**
 The two record shapes of the planner (src/types/index.ts), the field-error
 and submission outcomes the forms produce, the decimal timestamp ids new
 records receive, and the two sort orders the views use.

 Dates are integer milliseconds since the epoch. The `type` field of a task
 is named `kind` here. `kind` and `day` are kept as plain strings: the
 declared types name Spanish task types (and both Spanish and English day
 names) while the forms produce English values, and both must be
 representable.
 */
module Records {
  import opened ArrayOps
  import opened Collation
  import opened Digits

  datatype Option<T> = None | Some(value: T)

  datatype Result<T, E> = Ok(value: T) | Err(error: E)

  datatype Task = Task(id: string, title: string, description: Option<string>, dueDate: int, kind: string)

  datatype ClassItem = ClassItem(
    id: string,
    subject: string,
    day: string,
    startTime: string,
    endTime: string,
    location: Option<string>)

  /** A validation message attached to one form field. */
  datatype FieldError = FieldError(field: string, message: string)

  /** The validation library's default message for a value outside an enum (abbreviated). */
  const InvalidEnumValue: string := "Invalid enum value"

  /** The list a page holds after a form submission, and the errors shown (none on success). */
  datatype Submitted<T> = Submitted(items: seq<T>, errors: seq<FieldError>)

  /** The task types the record type declares. */
  const DeclaredTaskTypes: seq<string> := ["Tarea", "Examen", "Recordatorio"]

  /** The day names the record type declares: Spanish, then English. */
  const DeclaredDayNames: seq<string> :=
    ["Lunes", "Martes", "Miércoles", "Jueves", "Viernes", "Sábado", "Domingo",
     "Monday", "Tuesday", "Wednesday", "Thursday", "Friday", "Saturday", "Sunday"]

  predicate ConformsToTaskType(t: Task) { t.kind in DeclaredTaskTypes }

  predicate ConformsToClassType(c: ClassItem) { c.day in DeclaredDayNames }

  /** `n.toString()` for a non-negative integer: decimal digits without leading zeros. */
  function DecimalString(n: nat): (r: string)
    ensures |r| >= 1
    ensures forall i :: 0 <= i < |r| ==> IsDigit(r[i])
    ensures n > 0 ==> r[0] != '0'
  {
    if n < 10 then [DigitChar(n)] else DecimalString(n / 10) + [DigitChar(n % 10)]
  }

  /** The number a string of decimal digits spells. */
  function DecimalValue(s: string): nat
    requires forall i :: 0 <= i < |s| ==> IsDigit(s[i])
  {
    if s == [] then 0 else 10 * DecimalValue(s[..|s| - 1]) + DigitValue(s[|s| - 1])
  }

  lemma {:induction false} DecimalRoundTrip(n: nat)
    ensures DecimalValue(DecimalString(n)) == n
  {
    var r := DecimalString(n);
    if n < 10 {
      assert r[..0] == [];
    } else {
      DecimalRoundTrip(n / 10);
      assert r[..|r| - 1] == DecimalString(n / 10);
    }
  }

  /** The id a record created at timestamp `now` receives: `Date.now().toString()`. */
  function TimestampId(now: nat): (id: string)
    ensures |id| >= 1 && forall i :: 0 <= i < |id| ==> IsDigit(id[i])
    ensures DecimalValue(id) == now
  {
    DecimalRoundTrip(now);
    DecimalString(now)
  }

  /** Ids coincide exactly when the creation timestamps do; nothing more keeps ids unique. */
  lemma TimestampIdInjective(a: nat, b: nat)
    ensures TimestampId(a) == TimestampId(b) <==> a == b
  {
    DecimalRoundTrip(a);
    DecimalRoundTrip(b);
  }

  /** `a.dueDate.getTime() - b.dueDate.getTime() <= 0`. */
  predicate DueLe(a: Task, b: Task) { a.dueDate <= b.dueDate }

  /** `a.startTime.localeCompare(b.startTime) <= 0`. */
  predicate StartLe(a: ClassItem, b: ClassItem) { CollateLe(a.startTime, b.startTime) }

  lemma DueLeTotalPreorder()
    ensures TotalPreorder(DueLe)
  {
  }

  lemma StartLeTotalPreorder()
    ensures TotalPreorder(StartLe)
  {
    forall a: ClassItem, b: ClassItem
      ensures StartLe(a, b) || StartLe(b, a)
    {
      CollateTotal(a.startTime, b.startTime);
    }
    forall a: ClassItem, b: ClassItem, c: ClassItem | StartLe(a, b) && StartLe(b, c)
      ensures StartLe(a, c)
    {
      CollateTransitive(a.startTime, b.startTime, c.startTime);
    }
  }

  /** Under the modelled collation two classes sort as equal exactly when their start-time
      strings are identical; for the real `localeCompare` that holds for start strings of digits
      and ':', as accepted times are. */
  lemma StartEquivIffSameStart(a: ClassItem, b: ClassItem)
    ensures Equiv(StartLe, a, b) <==> a.startTime == b.startTime
  {
    if Equiv(StartLe, a, b) {
      CollateAntisymmetric(a.startTime, b.startTime);
    } else if a.startTime == b.startTime {
      CollateReflexive(a.startTime);
    }
  }
}

=== FILE: schedule_page.dfy ===
/**
 The schedule page (src/components/schedule-page-client.tsx): the class
 form's schema, submission (the new class goes to the END of the list), the
 seven day columns, each ordered by start time, and the plain-text rendering
 copied by "Share Schedule".
 */
module SchedulePage {
  import opened ArrayOps
  import opened Collation
  import opened TimePattern
  import opened Digits
  import opened Records

  /** The days the page shows, in column order, and the values the form's day enum admits. */
  const DaysOfWeek: seq<string> :=
    ["Monday", "Tuesday", "Wednesday", "Thursday", "Friday", "Saturday", "Sunday"]

  /** The page's days are the English half of the declared day names; no Spanish one is among
      them. */
  lemma DaysOfWeekFacts()
    ensures |DaysOfWeek| == 7 && DaysOfWeek == DeclaredDayNames[7..]
    ensures forall d :: d in DeclaredDayNames[..7] ==> d !in DaysOfWeek
  {
  }

  /** Each page day occurs once. */
  lemma DaysOfWeekDistinct()
    ensures forall i, j :: 0 <= i < j < |DaysOfWeek| ==> DaysOfWeek[i] != DaysOfWeek[j]
  {
  }

  const SubjectRequired: string := "Subject is required"
  const InvalidTimeFormat: string := "Invalid time format (HH:mm)"

  const SubjectError: FieldError := FieldError("subject", SubjectRequired)
  const DayError: FieldError := FieldError("day", InvalidEnumValue)
  const StartTimeError: FieldError := FieldError("startTime", InvalidTimeFormat)
  const EndTimeError: FieldError := FieldError("endTime", InvalidTimeFormat)

  /** Raw form values. The form starts with location "" (present but empty). */
  datatype ClassInput = ClassInput(
    subject: string,
    day: string,
    startTime: string,
    endTime: string,
    location: Option<string>)

  /** Every field's failure is reported, in schema order (subject, day, start, end). Both
      times are checked against the time pattern independently of each other. */
  function ClassErrors(input: ClassInput): (errs: seq<FieldError>)
    ensures SubjectError in errs <==> |input.subject| < 1
    ensures DayError in errs <==> input.day !in DaysOfWeek
    ensures StartTimeError in errs <==> !ValidTime(input.startTime)
    ensures EndTimeError in errs <==> !ValidTime(input.endTime)
    ensures forall e :: e in errs ==> e in [SubjectError, DayError, StartTimeError, EndTimeError]
  {
    assert |SubjectError.field| == 7 && |DayError.field| == 3 && |StartTimeError.field| == 9;
    assert SubjectError.field[0] != EndTimeError.field[0];
    (if |input.subject| < 1 then [SubjectError] else [])
    + (if input.day !in DaysOfWeek then [DayError] else [])
    + (if !Matches(input.startTime) then [StartTimeError] else [])
    + (if !Matches(input.endTime) then [EndTimeError] else [])
  }

  /** `classSchema`: all or nothing; the accepted values are the input unchanged. */
  function ValidateClass(input: ClassInput): (r: Result<ClassInput, seq<FieldError>>)
    ensures r.Ok? <==>
      |input.subject| >= 1 && input.day in DaysOfWeek && ValidTime(input.startTime) && ValidTime(input.endTime)
    ensures r.Ok? ==> r.value == input
    ensures r.Err? ==> r.error != [] && r.error == ClassErrors(input)
  {
    var errs := ClassErrors(input);
    if errs == [] then Ok(input) else Err(errs)
  }

  /** The schema never relates the two times: a class ending before it starts is accepted. */
  lemma EndBeforeStartAccepted(input: ClassInput)
    requires |input.subject| >= 1 && input.day in DaysOfWeek
    requires ValidTime(input.startTime) && ValidTime(input.endTime)
    requires MinutesOfDay(input.endTime) < MinutesOfDay(input.startTime)
    ensures ValidateClass(input).Ok?
  {
  }

  /** The class record a successful submission at timestamp `now` creates. */
  function NewClass(input: ClassInput, now: nat): (c: ClassItem)
    ensures forall i :: 0 <= i < |c.id| ==> IsDigit(c.id[i])
    ensures DecimalValue(c.id) == now
    ensures c.subject == input.subject && c.day == input.day && c.location == input.location
    ensures c.startTime == input.startTime && c.endTime == input.endTime
  {
    ClassItem(TimestampId(now), input.subject, input.day, input.startTime, input.endTime, input.location)
  }

  /** `onSubmit`: on success the new class is appended after the old list; on failure the
      list is untouched and the field errors are returned. */
  function SubmitClass(schedule: seq<ClassItem>, input: ClassInput, now: nat): (r: Submitted<ClassItem>)
    ensures r.errors == [] <==> ValidateClass(input).Ok?
    ensures r.errors == [] ==>
      && |r.items| == |schedule| + 1
      && r.items[..|schedule|] == schedule
      && r.items[|schedule|] == NewClass(input, now)
    ensures r.errors != [] ==> r.items == schedule && r.errors == ClassErrors(input)
  {
    match ValidateClass(input)
    case Ok(v) =>
      var c := NewClass(v, now);
      assert (schedule + [c])[..|schedule|] == schedule;
      Submitted(schedule + [c], [])
    case Err(errs) => Submitted(schedule, errs)
  }

  /** `c => c.day === day`. */
  function OnDay(day: string): ClassItem -> bool
  {
    (c: ClassItem) => c.day == day
  }

  /** One day's column: that day's classes by start time, classes starting at the same time
      in list order. */
  function DayColumn(schedule: seq<ClassItem>, day: string): (col: seq<ClassItem>)
    ensures forall c :: multiset(col)[c] == if c.day == day then multiset(schedule)[c] else 0
    ensures forall c :: c in col <==> c in schedule && c.day == day
    ensures Sorted(col, StartLe)
    ensures Stable(Filter(schedule, OnDay(day)), col, StartLe)
  {
    StartLeTotalPreorder();
    FilterCount(schedule, OnDay(day));
    SortByStable(Filter(schedule, OnDay(day)), StartLe);
    SortBy(Filter(schedule, OnDay(day)), StartLe)
  }

  /** The column is the only ordering of the day's classes by start time that keeps classes
      with the same start time in list order. */
  lemma DayColumnCharacterization(schedule: seq<ClassItem>, day: string, col: seq<ClassItem>)
    ensures col == DayColumn(schedule, day) <==>
      && Sorted(col, StartLe)
      && multiset(col) == multiset(Filter(schedule, OnDay(day)))
      && Stable(Filter(schedule, OnDay(day)), col, StartLe)
  {
    StartLeTotalPreorder();
    SortByCharacterization(Filter(schedule, OnDay(day)), col, StartLe);
  }

  /** The seven columns, Monday first. */
  function Columns(schedule: seq<ClassItem>): (cols: seq<seq<ClassItem>>)
    ensures |cols| == |DaysOfWeek|
    ensures forall i, c :: 0 <= i < |cols| ==> (c in cols[i] <==> c in schedule && c.day == DaysOfWeek[i])
  {
    seq(|DaysOfWeek|, i requires 0 <= i < |DaysOfWeek| => DayColumn(schedule, DaysOfWeek[i]))
  }

  /** A class whose day is one of the page's days appears in exactly one column. */
  lemma ClassInExactlyOneColumn(schedule: seq<ClassItem>, c: ClassItem)
    requires c in schedule && c.day in DaysOfWeek
    ensures exists i :: 0 <= i < |DaysOfWeek| && c in Columns(schedule)[i]
    ensures forall i, j ::
      0 <= i < |DaysOfWeek| && 0 <= j < |DaysOfWeek| && c in Columns(schedule)[i] && c in Columns(schedule)[j]
      ==> i == j
  {
    var cols := Columns(schedule);
    assert forall i :: 0 <= i < |DaysOfWeek| ==> (c in cols[i] <==> c.day == DaysOfWeek[i]);
    var i :| 0 <= i < |DaysOfWeek| && DaysOfWeek[i] == c.day;
    assert c in cols[i];
    DaysOfWeekDistinct();
  }

  /** A class with any other day, in particular a declared Spanish day name, is in no column. */
  lemma ForeignDayInNoColumn(schedule: seq<ClassItem>, c: ClassItem)
    requires c.day !in DaysOfWeek
    ensures forall i :: 0 <= i < |DaysOfWeek| ==> c !in Columns(schedule)[i]
  {
  }

  /** Appending a class leaves the column of every other day as it was. */
  lemma AppendOtherDayColumn(schedule: seq<ClassItem>, c: ClassItem, day: string)
    requires day != c.day
    ensures DayColumn(schedule + [c], day) == DayColumn(schedule, day)
  {
    FilterAppend(schedule, [c], OnDay(day));
    assert Filter([c], OnDay(day)) == [];
    assert Filter(schedule + [c], OnDay(day)) == Filter(schedule, OnDay(day));
  }

  /** Appending a class puts it into its day's column after every class starting at or before
      it and before the rest. */
  lemma AppendOwnDayColumn(schedule: seq<ClassItem>, c: ClassItem)
    ensures var col := DayColumn(schedule, c.day);
      var k := AppendIndex(c, col, StartLe);
      && DayColumn(schedule + [c], c.day) == col[..k] + [c] + col[k..]
      && (forall j :: 0 <= j < k ==> CollateLe(col[j].startTime, c.startTime))
      && (forall j :: k <= j < |col| ==> !CollateLe(col[j].startTime, c.startTime))
  {
    StartLeTotalPreorder();
    var f := Filter(schedule, OnDay(c.day));
    assert Filter(schedule + [c], OnDay(c.day)) == f + [c] by {
      FilterAppend(schedule, [c], OnDay(c.day));
      assert Filter([c], OnDay(c.day)) == [c];
    }
    SortByAppend(f, c, StartLe);
    AppendIndexSplit(c, DayColumn(schedule, c.day), StartLe);
  }

  /** A successful submission leaves every other day's column as it was and adds the new class
      to its day's column after every class starting at or before it and before the rest. */
  lemma SubmitClassColumns(schedule: seq<ClassItem>, input: ClassInput, now: nat)
    requires SubmitClass(schedule, input, now).errors == []
    ensures forall day :: day != input.day ==>
      DayColumn(SubmitClass(schedule, input, now).items, day) == DayColumn(schedule, day)
    ensures var c := NewClass(input, now);
      var col := DayColumn(schedule, input.day);
      var k := AppendIndex(c, col, StartLe);
      && DayColumn(SubmitClass(schedule, input, now).items, input.day) == col[..k] + [c] + col[k..]
      && (forall j :: 0 <= j < k ==> CollateLe(col[j].startTime, c.startTime))
      && (forall j :: k <= j < |col| ==> !CollateLe(col[j].startTime, c.startTime))
  {
    var items := SubmitClass(schedule, input, now).items;
    var c := NewClass(input, now);
    assert items == schedule + [c] by {
      assert items[..|schedule|] == schedule;
    }
    forall day | day != input.day
      ensures DayColumn(items, day) == DayColumn(schedule, day)
    {
      AppendOtherDayColumn(schedule, c, day);
    }
    AppendOwnDayColumn(schedule, c);
  }

  /** ` at <location>` when the location is present and non-empty, otherwise nothing. */
  function LocationSuffix(location: Option<string>): (r: string)
    ensures r != [] <==> location.Some? && location.value != []
    ensures r != [] ==> |r| > |location.value| && r[|r| - |location.value|..] == location.value
  {
    if location.Some? && location.value != [] then " at " + location.value else ""
  }

  /** One share line: `  - start-end: subject[ at location]`. */
  function ClassLine(c: ClassItem): (line: string)
    ensures |line| > 0 && line[|line| - 1] == '\n'
  {
    "  - " + c.startTime + "-" + c.endTime + ": " + c.subject + LocationSuffix(c.location) + "\n"
  }

  function ClassLines(col: seq<ClassItem>): string
  {
    if col == [] then "" else ClassLine(col[0]) + ClassLines(col[1..])
  }

  lemma {:induction false} ClassLinesAppend(a: seq<ClassItem>, b: seq<ClassItem>)
    ensures ClassLines(a + b) == ClassLines(a) + ClassLines(b)
  {
    if a == [] {
      assert a + b == b;
    } else {
      assert (a + b)[1..] == a[1..] + b;
      ClassLinesAppend(a[1..], b);
    }
  }

  /** The lines of a column with one class spliced in: that class's line spliced in. */
  lemma ClassLinesSplice(lo: seq<ClassItem>, c: ClassItem, hi: seq<ClassItem>)
    ensures ClassLines(lo + [c] + hi) == ClassLines(lo) + ClassLine(c) + ClassLines(hi)
  {
    assert ClassLines([c]) == ClassLine(c) by {
      assert [c][1..] == [];
    }
    ClassLinesAppend(lo, [c]);
    ClassLinesAppend(lo + [c], hi);
  }

  /** One day's block of the shared text: the day's name, its column's lines and a blank
      line; nothing at all for a day without classes. */
  function DaySection(schedule: seq<ClassItem>, day: string): (r: string)
    ensures r == [] <==> forall c :: c in schedule ==> c.day != day
  {
    var col := DayColumn(schedule, day);
    if col == [] then ""
    else
      assert col[0] in col;
      day + ":\n" + ClassLines(col) + "\n"
  }

  /** Appending a class gives its day's section exactly one more line, the new class's, at
      the class's place in the column. */
  lemma AppendOwnDaySection(schedule: seq<ClassItem>, c: ClassItem)
    ensures var col := DayColumn(schedule, c.day);
      var k := AppendIndex(c, col, StartLe);
      DaySection(schedule + [c], c.day)
        == c.day + ":\n" + (ClassLines(col[..k]) + ClassLine(c) + ClassLines(col[k..])) + "\n"
  {
    var col := DayColumn(schedule, c.day);
    var k := AppendIndex(c, col, StartLe);
    var after := col[..k] + [c] + col[k..];
    assert DayColumn(schedule + [c], c.day) == after by {
      AppendOwnDayColumn(schedule, c);
    }
    ClassLinesSplice(col[..k], c, col[k..]);
    assert after != [] by {
      assert after[k] == c;
    }
  }

  /** A successful submission leaves every other day's section of the shared text as it was,
      and gives the new class's day a section holding exactly one more line, the new class's,
      after the lines of the classes starting at or before it and before the rest. */
  lemma DaySectionAfterSubmit(schedule: seq<ClassItem>, input: ClassInput, now: nat)
    requires SubmitClass(schedule, input, now).errors == []
    ensures forall day :: day != input.day ==>
      DaySection(SubmitClass(schedule, input, now).items, day) == DaySection(schedule, day)
    ensures var c := NewClass(input, now);
      var col := DayColumn(schedule, input.day);
      var k := AppendIndex(c, col, StartLe);
      DaySection(SubmitClass(schedule, input, now).items, input.day)
        == input.day + ":\n" + (ClassLines(col[..k]) + ClassLine(c) + ClassLines(col[k..])) + "\n"
  {
    var items := SubmitClass(schedule, input, now).items;
    var c := NewClass(input, now);
    assert items == schedule + [c] by {
      assert items[..|schedule|] == schedule;
    }
    forall day | day != input.day
      ensures DaySection(items, day) == DaySection(schedule, day)
    {
      AppendOtherDayColumn(schedule, c, day);
    }
    AppendOwnDaySection(schedule, c);
  }

  /** The day sections of `days`, in that order. */
  function Sections(schedule: seq<ClassItem>, days: seq<string>): (r: string)
    ensures r == [] <==> forall c :: c in schedule ==> c.day !in days
  {
    if days == [] then ""
    else
      assert forall d :: d in days <==> d == days[0] || d in days[1..];
      DaySection(schedule, days[0]) + Sections(schedule, days[1..])
  }

  const ShareScheduleHeader: string := "My Weekly Schedule:\n\n"

  /** `handleShare`: the header, then a section for each day of the week that has classes. */
  function ShareSchedule(schedule: seq<ClassItem>): (text: string)
    ensures text == ShareScheduleHeader <==> forall c :: c in schedule ==> c.day !in DaysOfWeek
  {
    ShareScheduleHeader + Sections(schedule, DaysOfWeek)
  }

  /** No two different classes on the same day start at the same time. */
  predicate DistinctStartsPerDay(schedule: seq<ClassItem>)
  {
    forall a, b :: a in schedule && b in schedule && a.day == b.day && a.startTime == b.startTime ==> a == b
  }

  /** Under distinct start times per day, a column depends only on which classes there are. */
  lemma DayColumnOrderIndependent(s1: seq<ClassItem>, s2: seq<ClassItem>, day: string)
    requires multiset(s1) == multiset(s2)
    requires DistinctStartsPerDay(s1)
    ensures DayColumn(s1, day) == DayColumn(s2, day)
  {
    StartLeTotalPreorder();
    var f1, f2 := Filter(s1, OnDay(day)), Filter(s2, OnDay(day));
    assert multiset(f1) == multiset(f2) by {
      FilterCount(s1, OnDay(day));
      FilterCount(s2, OnDay(day));
      forall c
        ensures multiset(f1)[c] == multiset(f2)[c]
      {
      }
    }
    forall a, b | a in f1 && b in f1 && Equiv(StartLe, a, b)
      ensures a == b
    {
      StartEquivIffSameStart(a, b);
    }
    SortByPermutationInvariant(f1, f2, StartLe);
  }

  lemma {:induction false} SectionsFollowColumns(s1: seq<ClassItem>, s2: seq<ClassItem>, days: seq<string>)
    requires forall d :: d in days ==> DayColumn(s1, d) == DayColumn(s2, d)
    ensures Sections(s1, days) == Sections(s2, days)
  {
    if days != [] {
      assert DayColumn(s1, days[0]) == DayColumn(s2, days[0]);
      SectionsFollowColumns(s1, s2, days[1..]);
    }
  }

  /** With distinct start times per day the shared text depends only on which classes there
      are, not on the order they were added in. */
  lemma ShareScheduleOrderIndependent(s1: seq<ClassItem>, s2: seq<ClassItem>)
    requires multiset(s1) == multiset(s2)
    requires DistinctStartsPerDay(s1)
    ensures ShareSchedule(s1) == ShareSchedule(s2)
  {
    forall d | d in DaysOfWeek
      ensures DayColumn(s1, d) == DayColumn(s2, d)
    {
      DayColumnOrderIndependent(s1, s2, d);
    }
    SectionsFollowColumns(s1, s2, DaysOfWeek);
  }
}

=== FILE: seed_data.dfy ===
/**
 The seed records the pages start from (src/lib/data.ts), with the facts the
 pages rely on or run into: distinct ids, well-formed zero-padded times,
 English day names for every class, Spanish task types, and the orders in
 which the table, the dashboard and the day columns show them. The seed due
 dates are "today plus k days" at the moment the module loads; that moment is
 the parameter `base`.
 */
module SeedData {
  import opened ArrayOps
  import opened TimePattern
  import opened Digits
  import opened Records
  import opened TaskPage
  import opened SchedulePage
  import opened Dashboard

  /** Milliseconds in a day. */
  const DayMs: int := 86_400_000

  function SeedTasks(base: int): seq<Task>
  {
    [ Task("1", "Completar tarea de Matemáticas 5", Some("Problemas 1-10 de la página 56."), base + 2 * DayMs, "Tarea"),
      Task("2", "Estudiar para el parcial de Química", Some("Capítulos 4-6."), base + 5 * DayMs, "Examen"),
      Task("3", "Entregar borrador de ensayo de Historia", Some("Tema: El Renacimiento."), base + 1 * DayMs, "Tarea"),
      Task("4", "Reunión de proyecto en grupo", Some("Finalizar diapositivas de la presentación."), base, "Recordatorio") ]
  }

  /** Four tasks with ids "1".."4", each id once; every type is a declared (Spanish) type, which
      the form's schema would reject and the badge shows with the fallback variant. */
  lemma SeedTaskFacts(base: int)
    ensures |SeedTasks(base)| == 4
    ensures forall i :: 0 <= i < 4 ==> SeedTasks(base)[i].id == ["1", "2", "3", "4"][i]
    ensures forall i, j :: 0 <= i < j < 4 ==> SeedTasks(base)[i].id != SeedTasks(base)[j].id
    ensures forall t :: t in SeedTasks(base) ==> ConformsToTaskType(t)
    ensures forall t :: t in SeedTasks(base) ==> BadgeVariant(t.kind) == Outline && TaskIcon(t.kind).None?
    ensures forall t :: t in SeedTasks(base) ==> t.kind !in TaskTypes
  {
  }

  lemma FourDistinct(t1: Task, t2: Task, t3: Task, t4: Task)
    requires t4.dueDate < t3.dueDate < t1.dueDate < t2.dueDate
    ensures DistinctDueDates([t1, t2, t3, t4])
  {
  }

  lemma FourPermuted<T>(t1: T, t2: T, t3: T, t4: T)
    ensures multiset([t1, t2, t3, t4]) == multiset([t4, t3, t1, t2])
  {
    calc == {
      multiset([t1, t2, t3, t4]);
      { assert [t1, t2, t3, t4] == [t1, t2] + [t3, t4]; }
      multiset([t1, t2]) + multiset([t3, t4]);
      { assert multiset([t3, t4]) == multiset([t4, t3]); }
      multiset([t4, t3]) + multiset([t1, t2]);
      { assert [t4, t3, t1, t2] == [t4, t3] + [t1, t2]; }
      multiset([t4, t3, t1, t2]);
    }
  }

  lemma FourSorted(t1: Task, t2: Task, t3: Task, t4: Task)
    requires t4.dueDate < t3.dueDate < t1.dueDate < t2.dueDate
    ensures Sorted([t4, t3, t1, t2], DueLe)
  {
  }

  /** Four tasks due in the order 4th, 3rd, 1st, 2nd: the table lists them in that order. */
  lemma TableOfFour(t1: Task, t2: Task, t3: Task, t4: Task)
    requires t4.dueDate < t3.dueDate < t1.dueDate < t2.dueDate
    ensures TaskTable([t1, t2, t3, t4]) == [t4, t3, t1, t2]
  {
    var ts, rows := [t1, t2, t3, t4], [t4, t3, t1, t2];
    FourDistinct(t1, t2, t3, t4);
    FourPermuted(t1, t2, t3, t4);
    FourSorted(t1, t2, t3, t4);
    DueLeTotalPreorder();
    SortByOfSorted(rows, DueLe);
    SortByPermutationInvariant(ts, rows, DueLe);
  }

  /** The table lists the seed tasks as ids 4, 3, 1, 2: due today, then in 1, 2 and 5 days. */
  lemma SeedTableOrder(base: int)
    ensures var ts := SeedTasks(base);
      TaskTable(ts) == [ts[3], ts[2], ts[0], ts[1]]
    ensures var ts := SeedTasks(base);
      [ts[3].id, ts[2].id, ts[0].id, ts[1].id] == ["4", "3", "1", "2"]
  {
    var ts := SeedTasks(base);
    TableOfFour(ts[0], ts[1], ts[2], ts[3]);
    assert ts == [ts[0], ts[1], ts[2], ts[3]];
  }

  /** Which of four rows in due-date order are not yet due at `now`: the rows due before `now`
      form a prefix, and exactly that prefix drops off. */
  lemma FilterFour(t4: Task, t3: Task, t1: Task, t2: Task, now: int)
    requires t4.dueDate < t3.dueDate < t1.dueDate < t2.dueDate
    ensures now <= t4.dueDate ==> Filter([t4, t3, t1, t2], NotPast(now)) == [t4, t3, t1, t2]
    ensures t4.dueDate < now <= t3.dueDate ==> Filter([t4, t3, t1, t2], NotPast(now)) == [t3, t1, t2]
    ensures t3.dueDate < now <= t1.dueDate ==> Filter([t4, t3, t1, t2], NotPast(now)) == [t1, t2]
    ensures t1.dueDate < now <= t2.dueDate ==> Filter([t4, t3, t1, t2], NotPast(now)) == [t2]
    ensures t2.dueDate < now ==> Filter([t4, t3, t1, t2], NotPast(now)) == []
  {
    var s, p := [t4, t3, t1, t2], NotPast(now);
    var k: nat :=
      if now <= t4.dueDate then 0
      else if now <= t3.dueDate then 1
      else if now <= t1.dueDate then 2
      else if now <= t2.dueDate then 3
      else 4;
    assert forall i :: 0 <= i < k ==> !p(s[i]);
    assert forall i :: k <= i < |s| ==> p(s[i]);
    FilterDropsPrefix(s, k, p);
  }

  /** The dashboard over four tasks due in the order 4th, 3rd, 1st, 2nd: whatever `now` is, the
      rows due before it drop off and the rest keep table order. */
  lemma UpcomingOfFour(t1: Task, t2: Task, t3: Task, t4: Task, now: int)
    requires t4.dueDate < t3.dueDate < t1.dueDate < t2.dueDate
    ensures now <= t4.dueDate ==> UpcomingTasks([t1, t2, t3, t4], now) == [t4, t3, t1, t2]
    ensures t4.dueDate < now <= t3.dueDate ==> UpcomingTasks([t1, t2, t3, t4], now) == [t3, t1, t2]
    ensures t3.dueDate < now <= t1.dueDate ==> UpcomingTasks([t1, t2, t3, t4], now) == [t1, t2]
    ensures t1.dueDate < now <= t2.dueDate ==> UpcomingTasks([t1, t2, t3, t4], now) == [t2]
    ensures t2.dueDate < now ==> UpcomingTasks([t1, t2, t3, t4], now) == []
  {
    TableOfFour(t1, t2, t3, t4);
    UpcomingIsTableHead([t1, t2, t3, t4], now);
    FilterFour(t4, t3, t1, t2, now);
  }

  /** At the moment the seed is made every seed task is upcoming, in table order; one
      millisecond later the task due "today" has dropped off the dashboard. */
  lemma SeedUpcoming(base: int)
    ensures var ts := SeedTasks(base);
      UpcomingTasks(ts, base) == [ts[3], ts[2], ts[0], ts[1]]
    ensures var ts := SeedTasks(base);
      UpcomingTasks(ts, base + 1) == [ts[2], ts[0], ts[1]]
  {
    var ts := SeedTasks(base);
    assert ts == [ts[0], ts[1], ts[2], ts[3]];
    UpcomingOfFour(ts[0], ts[1], ts[2], ts[3], base);
    UpcomingOfFour(ts[0], ts[1], ts[2], ts[3], base + 1);
  }

  const Cl1: ClassItem := ClassItem("cl1", "Cálculo II", "Monday", "10:00", "11:00", Some("Edificio de Matemáticas 210"))
  const Cl2: ClassItem := ClassItem("cl2", "Introducción a la Física", "Monday", "13:00", "14:30", Some("Salón de Ciencias 101"))
  const Cl3: ClassItem := ClassItem("cl3", "Historia Mundial", "Tuesday", "09:00", "10:30", Some("Humanidades 305"))
  const Cl4: ClassItem := ClassItem("cl4", "Cálculo II", "Wednesday", "10:00", "11:00", Some("Edificio de Matemáticas 210"))
  const Cl5: ClassItem := ClassItem("cl5", "Laboratorio de Química", "Wednesday", "14:00", "16:00", Some("Laboratorio de Química 3"))
  const Cl6: ClassItem := ClassItem("cl6", "Introducción a la Física", "Friday", "13:00", "14:30", Some("Salón de Ciencias 101"))

  const SeedSchedule: seq<ClassItem> := [Cl1, Cl2, Cl3, Cl4, Cl5, Cl6]

  /** Six classes with distinct ids "cl1".."cl6", each on one of the page's days. */
  lemma SeedScheduleIds()
    ensures |SeedSchedule| == 6
    ensures forall i :: 0 <= i < 6 ==> SeedSchedule[i].id == "cl" + [DigitChar(i + 1)]
    ensures forall i, j :: 0 <= i < j < 6 ==> SeedSchedule[i].id != SeedSchedule[j].id
    ensures forall c :: c in SeedSchedule ==> c.day in DaysOfWeek && ConformsToClassType(c)
  {
  }

  /** A zero-padded literal the pattern accepts, with the minutes since midnight it names. */
  lemma PaddedLiteral(s: string, h: nat, m: nat)
    requires h < 24 && m < 60 && s == PaddedTime(h, m)
    ensures Matches(s) && ValidTime(s) && |s| == 5
    ensures MinutesOfDay(s) == h * 60 + m
  {
    PaddedTimeRoundTrip(h, m);
  }

  /** Both times zero-padded and accepted by the pattern (`ValidTime` is the pattern's language,
      `Matches`), the end after the start. */
  predicate WellTimed(c: ClassItem)
  {
    && |c.startTime| == 5 && |c.endTime| == 5
    && ValidTime(c.startTime) && ValidTime(c.endTime)
    && MinutesOfDay(c.startTime) < MinutesOfDay(c.endTime)
  }

  lemma PaddedWellTimed(c: ClassItem, h1: nat, m1: nat, h2: nat, m2: nat)
    requires h1 < 24 && m1 < 60 && h2 < 24 && m2 < 60
    requires c.startTime == PaddedTime(h1, m1) && c.endTime == PaddedTime(h2, m2)
    requires h1 * 60 + m1 < h2 * 60 + m2
    ensures WellTimed(c)
  {
    PaddedLiteral(c.startTime, h1, m1);
    PaddedLiteral(c.endTime, h2, m2);
  }

  /** Every seed time is zero-padded `HH:mm` the time pattern accepts, and every seed class
      ends after it starts. */
  lemma SeedTimes()
    ensures forall c :: c in SeedSchedule ==> WellTimed(c)
  {
    PaddedWellTimed(Cl1, 10, 0, 11, 0);
    PaddedWellTimed(Cl2, 13, 0, 14, 30);
    PaddedWellTimed(Cl3, 9, 0, 10, 30);
    PaddedWellTimed(Cl4, 10, 0, 11, 0);
    PaddedWellTimed(Cl5, 14, 0, 16, 0);
    PaddedWellTimed(Cl6, 13, 0, 14, 30);
  }

  /** No two seed classes on the same day start at the same time. */
  lemma SeedDistinctStarts()
    ensures DistinctStartsPerDay(SeedSchedule)
  {
  }

  /** The seed's share text does not depend on the order its classes were entered in. */
  lemma SeedShareAnyOrder(schedule: seq<ClassItem>)
    requires multiset(schedule) == multiset(SeedSchedule)
    ensures ShareSchedule(schedule) == ShareSchedule(SeedSchedule)
  {
    SeedDistinctStarts();
    ShareScheduleOrderIndependent(SeedSchedule, schedule);
  }

  /** Each seed class shows in exactly one column. */
  lemma SeedClassesInOneColumn(c: ClassItem)
    requires c in SeedSchedule
    ensures exists i :: 0 <= i < |DaysOfWeek| && c in Columns(SeedSchedule)[i]
    ensures forall i, j ::
      0 <= i < |DaysOfWeek| && 0 <= j < |DaysOfWeek| && c in Columns(SeedSchedule)[i] && c in Columns(SeedSchedule)[j]
      ==> i == j
  {
    SeedScheduleIds();
    ClassInExactlyOneColumn(SeedSchedule, c);
  }

  /** A column whose day only the first two classes of the list have, in start order, lists
      those two. */
  lemma ColumnOfFirstTwo(schedule: seq<ClassItem>, day: string)
    requires |schedule| >= 2
    requires schedule[0].day == day && schedule[1].day == day
    requires forall k :: 2 <= k < |schedule| ==> schedule[k].day != day
    requires StartLe(schedule[0], schedule[1])
    ensures DayColumn(schedule, day) == schedule[..2]
  {
    var p := OnDay(day);
    var rest := Filter(schedule[2..], p);
    FilterNone(schedule[2..], p);
    assert schedule[1..][1..] == schedule[2..];
    assert Filter(schedule, p) == schedule[..2];
    StartLeTotalPreorder();
    SortByOfSorted(schedule[..2], StartLe);
  }

  /** The Monday column shows cl1 (10:00) before cl2 (13:00). */
  lemma SeedMondayColumn()
    ensures DayColumn(SeedSchedule, "Monday") == [Cl1, Cl2]
  {
    assert SeedSchedule[..2] == [Cl1, Cl2];
    assert StartLe(Cl1, Cl2);
    ColumnOfFirstTwo(SeedSchedule, "Monday");
  }

  /** A class submitted to a day whose column is `[a, b]`, starting no earlier than `a` and
      before `b`, lands between them. */
  lemma ColumnAfterFirst(schedule: seq<ClassItem>, input: ClassInput, now: nat, a: ClassItem, b: ClassItem)
    requires SubmitClass(schedule, input, now).errors == []
    requires DayColumn(schedule, input.day) == [a, b]
    requires StartLe(a, NewClass(input, now)) && !StartLe(b, NewClass(input, now))
    ensures DayColumn(SubmitClass(schedule, input, now).items, input.day) == [a, NewClass(input, now), b]
  {
    AppendBetweenPair(a, NewClass(input, now), b, StartLe);
    SubmitClassColumns(schedule, input, now);
  }

  /** Adding "Calculus II" on Monday 10:00-11:00 with the form's default empty location puts it
      after cl1, which starts at the same time and was there first, and before cl2. */
  lemma SeedSubmitSameStart(now: nat)
    ensures var input := ClassInput("Calculus II", "Monday", "10:00", "11:00", Some(""));
      var r := SubmitClass(SeedSchedule, input, now);
      && r.errors == []
      && DayColumn(r.items, "Monday") == [Cl1, NewClass(input, now), Cl2]
      && LocationSuffix(NewClass(input, now).location) == ""
  {
    var input := ClassInput("Calculus II", "Monday", "10:00", "11:00", Some(""));
    var c := NewClass(input, now);
    assert ValidTime("10:00") && ValidTime("11:00") by {
      PaddedLiteral("10:00", 10, 0);
      PaddedLiteral("11:00", 11, 0);
    }
    assert "Monday" == DaysOfWeek[0];
    assert ValidateClass(input).Ok?;
    assert StartLe(Cl1, c) && !StartLe(Cl2, c);
    SeedMondayColumn();
    ColumnAfterFirst(SeedSchedule, input, now, Cl1, Cl2);
  }
}

=== FILE: task_page.dfy ===
/**
 The tasks page (src/components/tasks-page-client.tsx): the task form's
 schema, submission (the new task goes to the FRONT of the list), the table
 ordered by due date, the badge variant of a task type, and the plain-text
 rendering copied by "Share Tasks". The date formatter (date-fns `format`
 with "PPP") is a parameter the model does not interpret.
 */
module TaskPage {
  import opened ArrayOps
  import opened Records

  /** The types the form's schema admits. */
  const TaskTypes: seq<string> := ["Task", "Exam", "Reminder"]

  const TitleRequired: string := "Title is required"
  const DueDateRequired: string := "A due date is required."

  const TitleError: FieldError := FieldError("title", TitleRequired)
  const DueDateError: FieldError := FieldError("dueDate", DueDateRequired)
  const TypeError: FieldError := FieldError("type", InvalidEnumValue)

  /** Raw form values; an unpicked date is `None`. */
  datatype TaskInput = TaskInput(title: string, dueDate: Option<int>, kind: string, description: Option<string>)

  /** Form values the schema accepted. */
  datatype TaskValues = TaskValues(title: string, dueDate: int, kind: string, description: Option<string>)

  /** Every field's failure is reported, in schema order (title, due date, type). */
  function TaskErrors(input: TaskInput): (errs: seq<FieldError>)
    ensures TitleError in errs <==> |input.title| < 1
    ensures DueDateError in errs <==> input.dueDate.None?
    ensures TypeError in errs <==> input.kind !in TaskTypes
    ensures forall e :: e in errs ==> e in [TitleError, DueDateError, TypeError]
  {
    (if |input.title| < 1 then [TitleError] else [])
    + (if input.dueDate.None? then [DueDateError] else [])
    + (if input.kind !in TaskTypes then [TypeError] else [])
  }

  /** `taskSchema`: all or nothing. The due date may lie in the past. */
  function ValidateTask(input: TaskInput): (r: Result<TaskValues, seq<FieldError>>)
    ensures r.Ok? <==> |input.title| >= 1 && input.dueDate.Some? && input.kind in TaskTypes
    ensures r.Ok? ==> r.value == TaskValues(input.title, input.dueDate.value, input.kind, input.description)
    ensures r.Err? ==> r.error != [] && r.error == TaskErrors(input)
  {
    var errs := TaskErrors(input);
    if errs == [] then Ok(TaskValues(input.title, input.dueDate.value, input.kind, input.description))
    else Err(errs)
  }

  /** `onSubmit`: on success the new task, carrying the id made from `now`, goes in front of
      the old list; on failure the list is untouched and the field errors are returned. */
  function SubmitTask(tasks: seq<Task>, input: TaskInput, now: nat): (r: Submitted<Task>)
    ensures r.errors == [] <==> ValidateTask(input).Ok?
    ensures r.errors == [] ==>
      && |r.items| == |tasks| + 1
      && r.items[1..] == tasks
      && r.items[0] == Task(TimestampId(now), input.title, input.description, input.dueDate.value, input.kind)
    ensures r.errors != [] ==> r.items == tasks && r.errors == TaskErrors(input)
  {
    match ValidateTask(input)
    case Ok(v) =>
      var t := Task(TimestampId(now), v.title, v.description, v.dueDate, v.kind);
      assert ([t] + tasks)[1..] == tasks;
      Submitted([t] + tasks, [])
    case Err(errs) => Submitted(tasks, errs)
  }

  /** The table rows: the tasks ordered by due date, ties in list order. */
  function TaskTable(tasks: seq<Task>): (rows: seq<Task>)
    ensures multiset(rows) == multiset(tasks)
    ensures Sorted(rows, DueLe)
    ensures Stable(tasks, rows, DueLe)
  {
    DueLeTotalPreorder();
    SortByStable(tasks, DueLe);
    SortBy(tasks, DueLe)
  }

  /** The table order is the only ordering of the tasks by due date that keeps ties in list order. */
  lemma TaskTableCharacterization(tasks: seq<Task>, rows: seq<Task>)
    ensures rows == TaskTable(tasks) <==>
      Sorted(rows, DueLe) && multiset(rows) == multiset(tasks) && Stable(tasks, rows, DueLe)
  {
    DueLeTotalPreorder();
    SortByCharacterization(tasks, rows, DueLe);
  }

  /** The table sorts the page's list in place, so later submissions prepend to a sorted
      list; what the table then shows is what sorting the never-sorted list would show. */
  lemma TableSortInPlaceIsHarmless(added: seq<Task>, tasks: seq<Task>)
    ensures TaskTable(added + TaskTable(tasks)) == TaskTable(added + tasks)
  {
    DueLeTotalPreorder();
    SortByPrependSorted(added, tasks, DueLe);
  }

  /** A successful submission adds exactly one table row: after every task due strictly
      earlier, before every task due at the same time or later, the others keeping their order. */
  lemma SubmitTaskRowPlacement(tasks: seq<Task>, input: TaskInput, now: nat)
    requires SubmitTask(tasks, input, now).errors == []
    ensures var t := SubmitTask(tasks, input, now).items[0];
      var rows := TaskTable(tasks);
      var i := InsertIndex(t, rows, DueLe);
      && TaskTable(SubmitTask(tasks, input, now).items) == rows[..i] + [t] + rows[i..]
      && (forall j :: 0 <= j < i ==> rows[j].dueDate < t.dueDate)
      && (forall j :: i <= j < |rows| ==> t.dueDate <= rows[j].dueDate)
  {
    DueLeTotalPreorder();
    var items := SubmitTask(tasks, input, now).items;
    var t := items[0];
    assert items == [t] + tasks;
    InsertPosition(t, TaskTable(tasks), DueLe);
  }

  datatype Badge = Destructive | Default | Secondary | Outline

  /** `getTaskBadgeVariant`. */
  function BadgeVariant(kind: string): (b: Badge)
    ensures b == Outline <==> kind !in TaskTypes
  {
    match kind
    case "Exam" => Destructive
    case "Task" => Default
    case "Reminder" => Secondary
    case _ => Outline
  }

  /** Each admitted type has its own variant. */
  lemma BadgeVariantSeparatesTypes(a: string, b: string)
    requires a in TaskTypes && b in TaskTypes
    ensures BadgeVariant(a) == BadgeVariant(b) <==> a == b
  {
  }

  /** A task the form created never shows the fallback variant. */
  lemma SubmittedTaskBadge(tasks: seq<Task>, input: TaskInput, now: nat)
    requires SubmitTask(tasks, input, now).errors == []
    ensures BadgeVariant(SubmitTask(tasks, input, now).items[0].kind) != Outline
  {
  }

  /** The declared (Spanish) task types are outside the form's enum: the form rejects them,
      and a stored task carrying one gets the fallback variant. */
  lemma DeclaredTypesOutsideSchema(input: TaskInput)
    requires input.kind in DeclaredTaskTypes
    ensures BadgeVariant(input.kind) == Outline
    ensures ValidateTask(input).Err? && TypeError in ValidateTask(input).error
  {
  }

  /** The calendar disables days before today's midnight. */
  predicate PickerDisables(date: int, todayMidnight: int)
  {
    date < todayMidnight
  }

  /** The schema itself does not look at the date: a date the picker would disable is accepted. */
  lemma ValidationAcceptsDisabledDates(title: string, kind: string, date: int, todayMidnight: int)
    requires |title| >= 1 && kind in TaskTypes
    requires PickerDisables(date, todayMidnight)
    ensures ValidateTask(TaskInput(title, Some(date), kind, None)).Ok?
  {
  }

  const ShareTasksHeader: string := "My Tasks & Deadlines:\n\n"

  /** One share line: `- [type] title - Due: <formatted date>`. */
  function TaskLine(t: Task, formatDate: int -> string): (line: string)
    ensures |line| > 0 && line[|line| - 1] == '\n'
  {
    "- [" + t.kind + "] " + t.title + " - Due: " + formatDate(t.dueDate) + "\n"
  }

  function TaskLines(rows: seq<Task>, formatDate: int -> string): string
  {
    if rows == [] then "" else TaskLine(rows[0], formatDate) + TaskLines(rows[1..], formatDate)
  }

  lemma {:induction false} TaskLinesAppend(a: seq<Task>, b: seq<Task>, formatDate: int -> string)
    ensures TaskLines(a + b, formatDate) == TaskLines(a, formatDate) + TaskLines(b, formatDate)
  {
    if a == [] {
      assert a + b == b;
    } else {
      assert (a + b)[1..] == a[1..] + b;
      TaskLinesAppend(a[1..], b, formatDate);
    }
  }

  /** The lines of a list with one task spliced in: that task's line spliced in. */
  lemma TaskLinesSplice(lo: seq<Task>, t: Task, hi: seq<Task>, formatDate: int -> string)
    ensures TaskLines(lo + [t] + hi, formatDate)
      == TaskLines(lo, formatDate) + TaskLine(t, formatDate) + TaskLines(hi, formatDate)
  {
    assert TaskLines([t], formatDate) == TaskLine(t, formatDate) by {
      assert [t][1..] == [];
    }
    TaskLinesAppend(lo, [t], formatDate);
    TaskLinesAppend(lo + [t], hi, formatDate);
  }

  /** `handleShare`: the header, then one line per task in table order. */
  function ShareTasks(tasks: seq<Task>, formatDate: int -> string): (text: string)
    ensures text == ShareTasksHeader <==> tasks == []
  {
    var rows := TaskTable(tasks);
    assert rows == [] <==> tasks == [] by {
      assert |rows| == |multiset(rows)| == |multiset(tasks)| == |tasks|;
    }
    ShareTasksHeader + TaskLines(rows, formatDate)
  }

  /** No two different tasks of the list are due at the same instant. */
  predicate DistinctDueDates(tasks: seq<Task>)
  {
    forall a, b :: a in tasks && b in tasks && a.dueDate == b.dueDate ==> a == b
  }

  /** With distinct due dates the shared text depends only on which tasks there are. */
  lemma ShareTasksOrderIndependent(ts1: seq<Task>, ts2: seq<Task>, formatDate: int -> string)
    requires multiset(ts1) == multiset(ts2)
    requires DistinctDueDates(ts1)
    ensures ShareTasks(ts1, formatDate) == ShareTasks(ts2, formatDate)
  {
    DueLeTotalPreorder();
    SortByPermutationInvariant(ts1, ts2, DueLe);
  }

  /** A successful submission adds exactly the new task's line to the shared text, at its
      due-date position. */
  lemma ShareTasksAfterSubmit(tasks: seq<Task>, input: TaskInput, now: nat, formatDate: int -> string)
    requires SubmitTask(tasks, input, now).errors == []
    ensures var t := SubmitTask(tasks, input, now).items[0];
      var rows := TaskTable(tasks);
      var i := InsertIndex(t, rows, DueLe);
      ShareTasks(SubmitTask(tasks, input, now).items, formatDate)
        == ShareTasksHeader
           + (TaskLines(rows[..i], formatDate) + TaskLine(t, formatDate) + TaskLines(rows[i..], formatDate))
  {
    var t := SubmitTask(tasks, input, now).items[0];
    var rows := TaskTable(tasks);
    var i := InsertIndex(t, rows, DueLe);
    var items := SubmitTask(tasks, input, now).items;
    SubmitTaskRowPlacement(tasks, input, now);
    assert TaskTable(items) == rows[..i] + [t] + rows[i..];
    TaskLinesSplice(rows[..i], t, rows[i..], formatDate);
  }
}

=== FILE: time_pattern.dfy ===
/**
 The class form's time pattern `^([0-1]?[0-9]|2[0-3]):[0-5][0-9]$`
 (schedule-page-client.tsx, start and end time), as a character-level
 recogniser: a deterministic automaton run over the string. Its language is
 pinned down twice, by the pattern's structure (`ValidTime`) and by the
 clock times it spells (`TimePatternLanguage`).
 */
module TimePattern {
  import opened Collation
  import opened Digits

  /** The hour alternative `[0-1]?[0-9]|2[0-3]`. */
  predicate HourText(h: string)
  {
    || (|h| == 1 && IsDigit(h[0]))
    || (|h| == 2 && (('0' <= h[0] <= '1' && IsDigit(h[1])) || (h[0] == '2' && '0' <= h[1] <= '3')))
  }

  /** The minute part `[0-5][0-9]`. */
  predicate MinuteText(m: string)
  {
    |m| == 2 && '0' <= m[0] <= '5' && IsDigit(m[1])
  }

  /** The whole anchored pattern: a one- or two-character hour, ':', a two-character minute. */
  predicate ValidTime(s: string)
  {
    || (|s| == 4 && HourText(s[..1]) && s[1] == ':' && MinuteText(s[2..]))
    || (|s| == 5 && HourText(s[..2]) && s[2] == ':' && MinuteText(s[3..]))
  }

  /** Automaton states. `LeadLow`: read '0' or '1', a second hour digit may follow;
      `LeadTwo`: read '2', a second digit '0'..'3' may follow; `HourDone`: the hour is
      complete and ':' must follow. */
  datatype State = Start | LeadLow | LeadTwo | HourDone | Colon | MinuteTens | Accept | Reject

  function Step(q: State, c: char): State
  {
    match q
    case Start =>
      if c == '0' || c == '1' then LeadLow
      else if c == '2' then LeadTwo
      else if IsDigit(c) then HourDone
      else Reject
    case LeadLow =>
      if IsDigit(c) then HourDone else if c == ':' then Colon else Reject
    case LeadTwo =>
      if '0' <= c <= '3' then HourDone else if c == ':' then Colon else Reject
    case HourDone =>
      if c == ':' then Colon else Reject
    case Colon =>
      if '0' <= c <= '5' then MinuteTens else Reject
    case MinuteTens =>
      if IsDigit(c) then Accept else Reject
    case Accept => Reject
    case Reject => Reject
  }

  function Run(q: State, s: string): State
    decreases |s|
  {
    if s == [] then q else Run(Step(q, s[0]), s[1..])
  }

  /** `pattern.test(s)`: the automaton's run from `Start` ends in `Accept`. */
  predicate Matches(s: string): (ok: bool)
    ensures ok <==> ValidTime(s)
  {
    RunAcceptsIffValid(s);
    Run(Start, s) == Accept
  }

  lemma {:induction false} RunFromReject(s: string)
    ensures Run(Reject, s) == Reject
  {
    if s != [] {
      RunFromReject(s[1..]);
    }
  }

  lemma RunFromAccept(s: string)
    ensures Run(Accept, s) == Accept <==> s == []
  {
    if s != [] {
      RunFromReject(s[1..]);
    }
  }

  lemma RunFromMinuteTens(s: string)
    ensures Run(MinuteTens, s) == Accept <==> |s| == 1 && IsDigit(s[0])
  {
    if s != [] {
      RunFromAccept(s[1..]);
      RunFromReject(s[1..]);
    }
  }

  lemma RunFromColon(s: string)
    ensures Run(Colon, s) == Accept <==> MinuteText(s)
  {
    if s != [] {
      RunFromMinuteTens(s[1..]);
      RunFromReject(s[1..]);
    }
  }

  /** What may follow a complete hour: ':' and a minute part. */
  predicate AfterHour(s: string)
  {
    |s| == 3 && s[0] == ':' && MinuteText(s[1..])
  }

  lemma RunFromHourDone(s: string)
    ensures Run(HourDone, s) == Accept <==> AfterHour(s)
  {
    if s != [] {
      RunFromColon(s[1..]);
      RunFromReject(s[1..]);
    }
  }

  lemma RunFromLeadLow(s: string)
    ensures Run(LeadLow, s) == Accept <==>
      |s| > 0 && ((IsDigit(s[0]) && AfterHour(s[1..])) || AfterHour(s))
  {
    if s != [] {
      RunFromHourDone(s[1..]);
      RunFromColon(s[1..]);
      RunFromReject(s[1..]);
    }
  }

  lemma RunFromLeadTwo(s: string)
    ensures Run(LeadTwo, s) == Accept <==>
      |s| > 0 && (('0' <= s[0] <= '3' && AfterHour(s[1..])) || AfterHour(s))
  {
    if s != [] {
      RunFromHourDone(s[1..]);
      RunFromColon(s[1..]);
      RunFromReject(s[1..]);
    }
  }

  /** The automaton recognises exactly the pattern's language. */
  lemma RunAcceptsIffValid(s: string)
    ensures Run(Start, s) == Accept <==> ValidTime(s)
  {
    if s == [] {
    } else {
      var t := s[1..];
      RunFromLeadLow(t);
      RunFromLeadTwo(t);
      RunFromHourDone(t);
      RunFromReject(t);
      if |s| == 4 {
        assert s[..1] == [s[0]];
        assert t[1..] == s[2..];
      } else if |s| == 5 {
        assert s[..2] == [s[0], s[1]];
        assert t[1..] == s[2..];
        assert t[1..][1..] == s[3..];
      }
    }
  }

  /** `pattern.test(s)`: one pass of the automaton over the characters of `s`. */
  method RecogniseTime(s: string) returns (ok: bool)
    ensures ok <==> ValidTime(s)
  {
    var q := Start;
    var i := 0;
    while i < |s|
      invariant 0 <= i <= |s|
      invariant Run(q, s[i..]) == Run(Start, s)
    {
      assert s[i..][1..] == s[i + 1..];
      q := Step(q, s[i]);
      i := i + 1;
    }
    ok := q == Accept;
    RunAcceptsIffValid(s);
  }

  /** Hour denoted by an accepted string (its one or two leading digits). */
  function HourOf(s: string): (h: nat)
    requires ValidTime(s)
    ensures h < 24
  {
    if |s| == 4 then DigitValue(s[0]) else 10 * DigitValue(s[0]) + DigitValue(s[1])
  }

  /** Minute denoted by an accepted string (its last two digits). */
  function MinuteOf(s: string): (m: nat)
    requires ValidTime(s)
    ensures m < 60
  {
    10 * DigitValue(s[|s| - 2]) + DigitValue(s[|s| - 1])
  }

  /** Minutes since midnight; every accepted string names a time within one day. */
  function MinutesOfDay(s: string): (t: nat)
    requires ValidTime(s)
    ensures t < 1440
  {
    HourOf(s) * 60 + MinuteOf(s)
  }

  /** "HH:mm", zero-padded. */
  function PaddedTime(h: nat, m: nat): string
    requires h < 24 && m < 60
  {
    [DigitChar(h / 10), DigitChar(h % 10), ':', DigitChar(m / 10), DigitChar(m % 10)]
  }

  /** "H:mm", the one-digit-hour form the optional `[0-1]?` admits. */
  function ShortTime(h: nat, m: nat): string
    requires h < 10 && m < 60
  {
    [DigitChar(h), ':', DigitChar(m / 10), DigitChar(m % 10)]
  }

  lemma PaddedTimeRoundTrip(h: nat, m: nat)
    requires h < 24 && m < 60
    ensures ValidTime(PaddedTime(h, m))
    ensures HourOf(PaddedTime(h, m)) == h && MinuteOf(PaddedTime(h, m)) == m
  {
    var s := PaddedTime(h, m);
    assert s[..2] == [s[0], s[1]];
    assert s[3..] == [s[3], s[4]];
  }

  lemma ShortTimeRoundTrip(h: nat, m: nat)
    requires h < 10 && m < 60
    ensures ValidTime(ShortTime(h, m))
    ensures HourOf(ShortTime(h, m)) == h && MinuteOf(ShortTime(h, m)) == m
  {
    var s := ShortTime(h, m);
    assert s[..1] == [s[0]];
    assert s[2..] == [s[2], s[3]];
  }

  /** An accepted string is the spelling of the time it denotes. */
  lemma ValidTimeIsSpelled(s: string)
    requires ValidTime(s)
    ensures |s| == 5 ==> s == PaddedTime(HourOf(s), MinuteOf(s))
    ensures |s| == 4 ==> HourOf(s) < 10 && s == ShortTime(HourOf(s), MinuteOf(s))
  {
    DigitCharOfValue(s[0]);
    DigitCharOfValue(s[|s| - 2]);
    DigitCharOfValue(s[|s| - 1]);
    if |s| == 5 {
      assert s[..2] == [s[0], s[1]];
      DigitCharOfValue(s[1]);
      assert s[3..] == [s[3], s[4]];
    } else {
      assert s[..1] == [s[0]];
      assert s[2..] == [s[2], s[3]];
    }
  }

  /** The pattern accepts exactly "HH:mm" and "H:mm" for hours 0-23 (one digit only below 10)
      and minutes 00-59. */
  lemma TimePatternLanguage(s: string)
    ensures Matches(s) <==>
      exists h: nat, m: nat :: h < 24 && m < 60 &&
        (s == PaddedTime(h, m) || (h < 10 && s == ShortTime(h, m)))
  {
    if ValidTime(s) {
      ValidTimeIsSpelled(s);
      var h, m := HourOf(s), MinuteOf(s);
      if |s| == 5 {
        assert s == PaddedTime(h, m);
      } else {
        assert s == ShortTime(h, m);
      }
    }
    if exists h: nat, m: nat :: h < 24 && m < 60 && (s == PaddedTime(h, m) || (h < 10 && s == ShortTime(h, m))) {
      var h: nat, m: nat :| h < 24 && m < 60 && (s == PaddedTime(h, m) || (h < 10 && s == ShortTime(h, m)));
      if s == PaddedTime(h, m) {
        PaddedTimeRoundTrip(h, m);
      } else {
        ShortTimeRoundTrip(h, m);
      }
    }
  }

  /** Inputs the pattern turns away: an hour past 23, a minute past 59, the empty string, a
      three-digit hour, a one-digit minute, trailing white space. */
  lemma TimePatternRejects()
    ensures !Matches("24:00") && !Matches("12:60") && !Matches("") && !Matches("123:00")
    ensures !Matches("7:5") && !Matches("09:00 ")
  {
  }

  /** Inputs the pattern lets through, the one-digit hour among them. */
  lemma TimePatternAccepts()
    ensures Matches("00:00") && Matches("9:05") && Matches("23:59")
  {
  }

  /** For zero-padded times the collation order is the chronological order. */
  lemma PaddedCollationIsChronological(a: string, b: string)
    requires ValidTime(a) && ValidTime(b) && |a| == 5 && |b| == 5
    ensures CollateLe(a, b) <==> MinutesOfDay(a) <= MinutesOfDay(b)
  {
    assert a[..2] == [a[0], a[1]] && b[..2] == [b[0], b[1]];
    assert a[3..] == [a[3], a[4]] && b[3..] == [b[3], b[4]];
    var a1, b1 := a[1..], b[1..];
    var a2, b2 := a[2..], b[2..];
    var a3, b3 := a[3..], b[3..];
    var a4, b4 := a[4..], b[4..];
    assert a1[1..] == a2 && a2[1..] == a3 && a3[1..] == a4 && a4 == [a[4]];
    assert b1[1..] == b2 && b2[1..] == b3 && b3[1..] == b4 && b4 == [b[4]];
    if a[0] != b[0] {
      assert CollateLe(a, b) <==> DigitValue(a[0]) < DigitValue(b[0]);
    } else if a[1] != b[1] {
      assert CollateLe(a, b) <==> CollateLe(a1, b1);
      assert CollateLe(a1, b1) <==> DigitValue(a[1]) < DigitValue(b[1]);
    } else if a[3] != b[3] {
      assert CollateLe(a, b) <==> CollateLe(a1, b1);
      assert CollateLe(a1, b1) <==> CollateLe(a2, b2);
      assert CollateLe(a2, b2) <==> CollateLe(a3, b3);
      assert CollateLe(a3, b3) <==> DigitValue(a[3]) < DigitValue(b[3]);
    } else {
      assert CollateLe(a, b) <==> CollateLe(a1, b1);
      assert CollateLe(a1, b1) <==> CollateLe(a2, b2);
      assert CollateLe(a2, b2) <==> CollateLe(a3, b3);
      assert CollateLe(a3, b3) <==> CollateLe(a4, b4);
      assert CollateLe(a4, b4) <==> DigitValue(a[4]) <= DigitValue(b[4]);
    }
  }

  /** How a one-digit hour "H:mm" collates against a padded "HH:mm": the first characters
      compare H with the tens digit of the padded hour, and on a tie ':' beats the digit that
      follows it. So the short time sorts first exactly when H is at most that tens digit, and
      the minutes never matter. */
  lemma ShortVsPadded(h: nat, m: nat, hh: nat, mm: nat)
    requires h < 10 && m < 60 && hh < 24 && mm < 60
    ensures CollateLe(ShortTime(h, m), PaddedTime(hh, mm)) <==> h <= hh / 10
    ensures CollateLe(PaddedTime(hh, mm), ShortTime(h, m)) <==> hh / 10 < h
  {
    assert ShortTime(h, m)[1..][0] == ':' && PaddedTime(hh, mm)[1..][0] == DigitChar(hh % 10);
  }

  /** Instances of the rule beyond the 10-19 band: "3:00" sorts after "20:00", "0:45" before
      "00:15" (both against the clock), and "0:30" before "05:00" (with it). */
  lemma ShortVsPaddedExamples()
    ensures CollateLe("20:00", "3:00") && !CollateLe("3:00", "20:00")
    ensures CollateLe("0:45", "00:15") && !CollateLe("00:15", "0:45")
    ensures CollateLe("0:30", "05:00") && !CollateLe("05:00", "0:30")
  {
    ShortVsPadded(3, 0, 20, 0);
    ShortVsPadded(0, 45, 0, 15);
    ShortVsPadded(0, 30, 5, 0);
  }

  /** For the one-digit-hour form the pattern also accepts, collation and clock disagree:
      an hour 2-9 written with one digit is earlier than any padded hour 10-19 but sorts after
      it ("9:00" after "10:00"), because the first characters already decide. */
  lemma ShortHourCollatesOutOfOrder(h: nat, m: nat, hh: nat, mm: nat)
    requires 2 <= h < 10 && m < 60 && 10 <= hh < 20 && mm < 60
    ensures ValidTime(ShortTime(h, m)) && ValidTime(PaddedTime(hh, mm))
    ensures MinutesOfDay(ShortTime(h, m)) < MinutesOfDay(PaddedTime(hh, mm))
    ensures CollateLe(PaddedTime(hh, mm), ShortTime(h, m)) && !CollateLe(ShortTime(h, m), PaddedTime(hh, mm))
  {
    ShortTimeRoundTrip(h, m);
    PaddedTimeRoundTrip(hh, mm);
    assert PaddedTime(hh, mm)[0] == '1';
  }

  /** One-digit hours 0 and 1 do sort before the padded hours 10-19, as the clock does: "0:30"
      starts with a lower digit and "1:30" puts ':' against a digit. */
  lemma ShortLowHourCollatesInOrder(h: nat, m: nat, hh: nat, mm: nat)
    requires h < 2 && m < 60 && 10 <= hh < 20 && mm < 60
    ensures ValidTime(ShortTime(h, m)) && ValidTime(PaddedTime(hh, mm))
    ensures MinutesOfDay(ShortTime(h, m)) < MinutesOfDay(PaddedTime(hh, mm))
    ensures CollateLe(ShortTime(h, m), PaddedTime(hh, mm)) && !CollateLe(PaddedTime(hh, mm), ShortTime(h, m))
  {
    ShortTimeRoundTrip(h, m);
    PaddedTimeRoundTrip(hh, mm);
    var a, b := ShortTime(h, m), PaddedTime(hh, mm);
    assert b[0] == '1';
    if h == 1 {
      assert a[1..][0] == ':' && IsDigit(b[1..][0]);
    }
  }

  /** Mixing the two spellings below ten o'clock goes wrong the other way round: a one-digit
      hour 1-9 sorts after every later padded "0H:mm", so "1:30" comes after "09:00" although it
      is earlier. (Hour 0 does not: "0:30" sorts before "05:00".) */
  lemma ShortHourAfterPaddedMorning(h: nat, m: nat, hh: nat, mm: nat)
    requires 1 <= h < hh < 10 && m < 60 && mm < 60
    ensures ValidTime(ShortTime(h, m)) && ValidTime(PaddedTime(hh, mm))
    ensures MinutesOfDay(ShortTime(h, m)) < MinutesOfDay(PaddedTime(hh, mm))
    ensures CollateLe(PaddedTime(hh, mm), ShortTime(h, m)) && !CollateLe(ShortTime(h, m), PaddedTime(hh, mm))
  {
    ShortTimeRoundTrip(h, m);
    PaddedTimeRoundTrip(hh, mm);
    assert PaddedTime(hh, mm)[0] == '0';
  }
}
